=== FILE: README.md ===
# py-umls lookup helpers in Dafny

This project models the pure core of py-umls, a small Python toolkit for UMLS and RxNorm
lookups. The database queries themselves are not modelled: every query is an oracle
function from its parameters to the rows the database returns, in whatever order it
returns them. On top of those oracles the project models:

- **Graphable** (`graphable.py`): Graphviz output of graphable objects and relations. An
  object is announced to a `DotContext`. The context records it and asks it to deliver
  itself, and a relation announces both of its endpoints before it delivers. The model
  proves three things:
  - this mutual recursion terminates on cyclic object graphs;
  - every announced object is delivered exactly once;
  - the emitted text is the objects' DOT lines in delivery order.

  It also models the `dot` command line and the wrapping `digraph G { … }` document.
- **RxNorm** (`rxnorm.py`):
  - `lookup_code_meaning`, including its nested preferred-term-type loop;
  - `rxcui_for_ndc`'s pick of the most common RXCUI;
  - parsing of the VA class code;
  - `friendly_class_format`'s clean-up of a VA class name.
- **RxNormLink** (`rxnorm_link.py` and the older `rxnorm-link.py`, whose helpers have
  identical bodies): brand and generic, components, treatment intents, mechanisms,
  ingredients along the term-type tables, and the VA class cache written by
  `walkVAs`/`storeVAs` and read by `toDrugClasses`.
- **Umls** (`umls.py`): CUI parsing (negation and `@` qualifiers), `lookup_code`,
  `lookup_code_meaning` and `lookup_code_for_name`.
- **Sqlite** (`sqlite.py`): the connection state of the `SQLite` wrapper, and the CREATE and
  INSERT statements `CSVImporter.import_to` builds from a CSV header.
- **LinkRun** (`rxnorm_link_run.py`): the document handlers.
  - The plain handler keeps present documents.
  - The MongoDB handler flushes every fifty documents. The collection is represented by
    the log of batches it received.
  - The CSV handler writes a header and one line per document.

Shared pieces: `Wrappers` (`Option`, `Result`) and `Strings`. `Strings` models the few
Python `str` operations the helpers use, over ASCII: `split`, `join`, `index`, `strip`,
`lower`, `replace`, and the `\w` character class.

## Model

| member | source | states |
|---|---|---|
| Graphable.Name | graphable.py:24-26 | the name is never empty: the object's own name when it has one, `unnamed` otherwise (always for a relation) |
| Graphable.AttributeEntries | graphable.py:34-43 | one entry per set attribute, in the order `shape=`, `style=`, `color=`, `label="…"`, each carrying its value; no entries exactly when no attribute is set |
| Graphable.InnerDot | graphable.py:33-45 | an attribute list exists exactly when some attribute is set, and it is bracketed |
| Graphable.InnerDotEntries | graphable.py:33-45 | splitting the bracketed list at its commas gives back the attribute entries, in order (attributes without commas) |
| Graphable.DotRepresentation | graphable.py:47-92 | a node's line is the bare `\tNAME;\n` exactly when it has no attributes; a relation's line is empty exactly when it has no target; every non-empty line starts with a tab and ends with `;\n` |
| Graphable.DotRepresentationText | graphable.py:47-51 | an attributed node's line is a tab, the name, a space, the attribute list and `;\n` |
| Graphable.EdgeLineReadsBack | graphable.py:86-90 | between the tab and the `;`, an edge line splits at spaces into the source's name, `->`, the target's name and the attribute list (empty without attributes), when no name or value holds a space |
| Graphable.NodeLineReadsBack | graphable.py:47-51 | an attributed node line splits at spaces into the name and the bracketed attribute list, when neither holds a space |
| Graphable.Deliver | graphable.py:116-117 | delivering appends the object's line to the source and records it once; the announced set is unchanged |
| Graphable.Announce | graphable.py:111-114 | the object ends up announced; announcing an already-announced object changes nothing; the context stays consistent (every delivered object announced, the log duplicate-free, the source equal to the logged lines); apart from the object itself, only objects that want announcing are added; every added object is reached from it through relation endpoints |
| Graphable.AnnounceTo | graphable.py:62-69 | an object with a reason to be announced (attributes for a node, both endpoints for a relation; graphable.py:81-82) is announced; any other object leaves the context unchanged; every object it newly announces wants announcing and is reached from it through relation endpoints |
| Graphable.DeliverTo | graphable.py:94-97 | a relation announces both endpoints before its own line is delivered, and the delivering object is logged last; every object it newly announces wants announcing and is reached from it through relation endpoints; the recursion terminates because every step announces a new object |
| Graphable.Render | graphable.py:139-144 | from a fresh context: each announced object is delivered exactly once; the source is the delivered objects' lines in order; every node endpoint's line precedes the edges that use it; every announced relation's endpoints are announced; only objects that want announcing (attributes for a node, both endpoints for a relation) are announced, so no bare `\tNAME;\n` line is emitted; every announced object is reached from the root by following relations to their endpoints, the only way graphable.py:94-97 hands objects to the context; a root that does not want announcing renders nothing. The line-order guarantee covers node endpoints only: when two relations name each other, the second one's line is appended while the first is still waiting to deliver its own (graphable.py:94-97), so an edge line cannot always follow a relation endpoint's line |
| Graphable.CycleRendersEachOnce | graphable.py:53-58 | two relations naming each other and a shared node render, all three are delivered, and the log has one entry per announced object |
| Graphable.CycleReached | graphable.py:94-97 | rendering from one relation of a cycle announces its partner relation and the node they point at |
| Graphable.CycleExample | graphable.py:72-82 | such a relation cycle is a well-formed input |
| Graphable.NodeRendersAlone | graphable.py:53-69 | rendering from a node announces nothing but that node: a node's `deliver_to` announces no other object |
| Graphable.NodeRendersOwnLine | graphable.py:62-69 | from a node root, the log is exactly that node when it has attributes; without attributes nothing is delivered and the source is empty |
| Graphable.RenderLogSize | graphable.py:111-114 | the delivery log is exactly as long as the set of announced objects |
| Graphable.NewGraphic | graphable.py:123-129 | a new graphic runs `dot` with output type `png` into the given file |
| Graphable.Command | graphable.py:131-137 | the command is the program, `-T` with the output type, `-o` with the output file, and the input file |
| Graphable.Document | graphable.py:146 | the document is `digraph G {\n`, the source unchanged, then `}\n` |
| Graphable.WriteDotGraph | graphable.py:139-159 | the failure is raised exactly when the renderer exits above zero, carrying the command; otherwise the document wraps the rendered lines of the root |
| RxNorm.Rank | rxnorm.py:73 | a term type's rank is its position in `BN, IN, PIN, SBDC, SCDC, SBD, SCD, MIN`, and it is past the end exactly for other term types |
| RxNorm.FormatRow | rxnorm.py:60-63 | plain form `STR [TTY]`; HTML form: the name in a span titled with the RXAUI, followed by the term type in brackets in a grey span |
| RxNorm.FormatRowReadsBack | rxnorm.py:60-61 | split at `[`, a plain name reads back as the name and a space, then the term type and `]`, when neither holds a `[` |
| RxNorm.PreferredPick | rxnorm.py:72-80 | picks the row whose term type ranks best, the first such row; `None` exactly when no row has a preferred term type |
| RxNorm.PreferredPickUnique | rxnorm.py:72-80 | the preferred pick is unique |
| RxNorm.LookupCodeMeaning | rxnorm.py:49-95 | `""` for a missing or empty id; `None` when nothing is found; when preferred, one name (the preferred pick, or the first row when none ranks); otherwise all names joined by `; ` or an HTML break |
| RxNorm.Tally | rxnorm.py:136-139 | the dictionary built from the query rows holds exactly the RXCUIs found, each mapped to the number of rows that carried it |
| RxNorm.RxcuiForNdc | rxnorm.py:132-145 | `None` exactly when nothing is found; otherwise an RXCUI of highest count, the first seen among ties; a single RXCUI is returned as is |
| RxNorm.MostCommonUnique | rxnorm.py:144-145 | the most common RXCUI, first seen among ties, is unique |
| RxNorm.MostCommonFirst | rxnorm.py:141-142 | when all rows carry one RXCUI, that RXCUI is the answer |
| RxNorm.VaCode | rxnorm.py:256-261 | an empty name fails (the index past the end); a name not starting with `[` or without `]` has no code; otherwise the code is the text between `[` and the first `]` |
| RxNorm.VaCodeRoundTrip | rxnorm.py:261 | a bracketed code followed by any text gives the code back |
| RxNorm.FriendlyVaDrugClasses | rxnorm.py:249-266 | `None` for a missing name; a failure for an empty one; the stored names exactly when the name has a code with stored names, and `None` otherwise |
| RxNorm.DropIdentifier | rxnorm.py:276-278 | a name without `]` is unchanged; otherwise the result is the text after the first `]` without its leading and trailing whitespace |
| RxNorm.CutAfterThree | rxnorm.py:281-285 | the name is unchanged unless the first separator is past index 2, and then it is cut to the text before that separator; any separator left sits at index 2 or before |
| RxNorm.FriendlyClassFormat | rxnorm.py:268-291 | `None` exactly for a missing or empty name; otherwise, up to letter case, the name with its identifier dropped and cut at `,` then `/`; lower case except word starts, which are upper case |
| RxNorm.FriendlyClassFormatIdempotent | rxnorm.py:268-291 | formatting a formatted (non-empty, `]`-free) name again changes nothing |
| RxNormLink.BrandAndGeneric | rxnorm_link.py:27-31 | the result is exactly the union of the `tradename_of` relatives of the inputs |
| RxNormLink.ComponentsOf | rxnorm_link.py:39-42 | the SCDC atoms of every `consists_of` relative of the RXCUI |
| RxNormLink.Components | rxnorm_link.py:33-44 | empty unless the term type is SBD or SCD; then the union of the inputs' components |
| RxNormLink.FirstRelatedNames | rxnorm_link.py:57-60 | nothing without a related atom; otherwise the names of the FIRST related atom, with the suffix removed |
| RxNormLink.StripsSuffix | rxnorm_link.py:60 | removing ` [Disease/Finding]` (or ` [MoA]`) from a name carrying it once recovers the name |
| RxNormLink.TreatmentIntentsHelper | rxnorm_link.py:52-62 | the treatment names of an ingredient are exactly the disease names of its NDF-RT atoms |
| RxNormLink.TreatmentIntents | rxnorm_link.py:46-50 | the union of the helper over the inputs |
| RxNormLink.MechanismHelper | rxnorm_link.py:70-80 | the mechanism names of an ingredient are exactly the MoA names of its NDF-RT atoms |
| RxNormLink.Mechanism | rxnorm_link.py:64-68 | the union of the helper over the inputs |
| RxNormLink.IngredientsHelper | rxnorm_link.py:89-122 | nothing for IN and for unmapped term types; the direct relatives for a directly mapped term type (rxnorm-link.py:84-117 is the same over its global handle) |
| RxNormLink.Ingredients | rxnorm_link.py:83-87 | the union of the helper over the inputs |
| RxNormLink.IngredientsFollowPath | rxnorm_link.py:89-122 | the helper's result is exactly the set reached by following the term type's relation path (rxnorm-link.py:84-117 is the same over its global handle) |
| RxNormLink.IngredientsAreChainEnds | rxnorm_link.py:89-122 | an RXCUI is an ingredient exactly when a chain of relations along the term type's path leads to it (rxnorm-link.py:84-117 is the same over its global handle) |
| RxNormLink.RelasFor | rxnorm_link.py:216-220 | the relations to follow are exactly those the mapping lists for the RXCUI's term types |
| RxNormLink.VaMappingRelas | rxnorm_link.py:143-185 | under `traverseVA`'s table, an SCDF is walked along `inverse_isa`, an SBDG along `has_ingredient` and `tradename_of`, an IN along nothing, and several term types along the union |
| RxNormLink.RelatedByAny | rxnorm_link.py:223-231 | the related RXCUIs are exactly those related by one of the relations |
| RxNormLink.StoreVAs | rxnorm_link.py:234-239 | inserting or replacing the entry: the RXCUI maps to the `\|`-joined classes at the level, every other entry kept |
| RxNormLink.ToDrugClasses | rxnorm_link.py:241-244 | nothing for an RXCUI without an entry; otherwise the `\|`-free pieces of the stored text, whose `\|`-join is that text |
| RxNormLink.StoreThenRead | rxnorm_link.py:234-244 | reading back stored classes (without `\|`) gives the same classes |
| RxNormLink.WalkVAs | rxnorm_link.py:211-232 | every related RXCUI gets the classes one level deeper; every other entry is left as it was |
| Umls.Restrict | umls.py:43 | a preferred lookup keeps exactly the rows from SNOMEDCT or MTH; otherwise all rows |
| Umls.ParseCui | umls.py:70-76 | negated exactly when the CUI starts with `-`; the key is the rest up to the first `@` |
| Umls.ParseCuiRoundTrip | umls.py:70-76 | writing a key with or without negation and with or without a qualifier parses back to it |
| Umls.LookupCodeAsWritten | umls.py:49-94 | nothing for a missing or empty CUI; otherwise one hit per row, the row itself or, when negated, the bare string `[NEGATED] STR` |
| Umls.LookupCode | umls.py:49-94 | corrected: a negated hit is the row with the marker in front of its name |
| Umls.NegatedMeaningAsWritten | umls.py:88-113 | as written, the meaning of a negated CUI with one row is `[ (N)  [E]`, whatever the row holds |
| Umls.MeaningAsWritten | umls.py:97-113 | as written: `""` exactly when nothing is found; for a CUI without negation, the corrected meaning; for a negated CUI, one garbled entry `[ (N)  [E]` (or its HTML form) per row, joined |
| Umls.LookupCodeMeaning | umls.py:97-113 | corrected (over `Umls.LookupCode`): `""` exactly when nothing is found; otherwise every hit formatted, in order, joined with `, ` or an HTML break |
| Umls.NegatedMeaning | umls.py:88-113 | corrected: each entry of a negated CUI's meaning is the marker followed by the plain CUI's entry |
| Umls.ContainsPattern | umls.py:142 | the LIKE pattern is the name between two `%` |
| Umls.LookupCodeForName | umls.py:116-145 | `None` exactly for a missing or empty name; otherwise all matches, or when preferred exactly the matches from SNOMEDCT or MTH |
| Umls.RestrictConcepts | umls.py:135-136 | a concept is kept exactly when it comes from a preferred source |
| Umls.PreferredLookupFiltersPlain | umls.py:134-145 | the preferred lookup answers exactly when the plain one does, and holds exactly the plain result's concepts from SNOMEDCT or MTH |
| Sqlite.New | sqlite.py:56-62 | fails exactly without a database; starts unconnected |
| Sqlite.Connect | sqlite.py:127-132 | afterwards there is a cursor; an existing cursor is kept, otherwise a new session opens |
| Sqlite.Close | sqlite.py:134-140 | afterwards there is no cursor; closing a closed wrapper changes nothing |
| Sqlite.ConnectCloseIdempotent | sqlite.py:127-140 | connecting twice is connecting once, closing twice is closing once |
| Sqlite.Execute | sqlite.py:65-75 | fails with `No SQL to execute` exactly for missing or empty SQL; otherwise it leaves a cursor and opens at most one session |
| Sqlite.ExecuteConnectsOnce | sqlite.py:72-73 | a sequence of statements opens at most one session, and none on a connected wrapper |
| Sqlite.ExecuteInsert | sqlite.py:78-85 | fails when `execute` does; otherwise returns the last row id, 0 when there is none |
| Sqlite.HasTable | sqlite.py:105-109 | true exactly when the count row exists and is positive |
| Sqlite.SanitizeField | sqlite.py:170-186 | only word characters remain, and every word character of the field is kept |
| Sqlite.SanitizeKeepsWords | sqlite.py:186 | a field of word characters is unchanged |
| Sqlite.SanitizeIdempotent | sqlite.py:186 | sanitising twice is sanitising once |
| Sqlite.ImportStatements | sqlite.py:177-201 | one statement per row: the CREATE without parameters for the header, the INSERT with the row as parameters for every other row |
| Sqlite.InsertPlaceholderCount | sqlite.py:169-193 | the INSERT holds exactly one `?` per header field |
| Sqlite.CreateColumnCount | sqlite.py:168-190 | the CREATE separates its columns with exactly one comma fewer than there are fields |
| LinkRun.AddDocument | rxnorm_link_run.py:24-26 | a missing document is ignored, any other one appended |
| LinkRun.AddAll | rxnorm_link_run.py:24-26 | after a stream of documents the handler holds exactly the present ones, in order |
| LinkRun.PresentMembers | rxnorm_link_run.py:24-26 | a document is kept exactly when it was passed |
| LinkRun.InsertAndClear | rxnorm_link_run.py:68-71 | a non-empty buffer becomes one more batch, an empty one inserts nothing; the buffer ends empty and no document is lost |
| LinkRun.MongoAdd | rxnorm_link_run.py:60-63 | no document is lost or reordered, and the buffer is never left holding a multiple of 50 documents |
| LinkRun.Finalize | rxnorm_link_run.py:65-66 | afterwards nothing is buffered and the collection holds everything passed so far |
| LinkRun.MongoAddSteady | rxnorm_link_run.py:60-63 | with fewer than 50 documents buffered and only full batches inserted, adding one keeps it that way |
| LinkRun.Run | rxnorm_link_run.py:60-63 | a run leaves inserted plus buffered equal to the present documents, in order |
| LinkRun.RunSteady | rxnorm_link_run.py:60-71 | during a run every inserted batch holds exactly 50 documents |
| LinkRun.RunThenFinalize | rxnorm_link_run.py:60-71 | after finalize the batches concatenate to the present documents in order; each holds 1 to 50, all but the last exactly 50 |
| LinkRun.Cells | rxnorm_link_run.py:87-96 | a row has as many cells as the header has columns |
| LinkRun.CsvRowReadsBack | rxnorm_link_run.py:87-96 | split at commas, a row gives seven cells: the rxcui (`0` when missing), the quoted tty, the bare ndc, the quoted label, and the three quoted `;`-joined lists (`""` when missing) |
| LinkRun.ListReadsBack | rxnorm_link_run.py:92-94 | a non-empty list without `;` is recovered by splitting its cell at `;` |
| LinkRun.HeaderReadsBack | rxnorm_link_run.py:84 | the header splits into `rxcui, tty, ndc, name, va_classes, treating, ingredients` |
| LinkRun.CsvFileLines | rxnorm_link_run.py:80-96 | the file has one line for the header and one per document |

## Left out

- Database access is not modelled:
  - opening the databases;
  - `check_database` and its file checks;
  - `SQLite.get` and its per-thread instance cache;
  - `executeUpdate`, `executeOne`, `create`, `commit` and `rollback` beyond their use above;
  - LIKE matching and the order of query results.

  A preferred lookup (`SAB IN (...)`) is its own SQL statement without `ORDER BY`. The model
  builds its rows by filtering the plain query's rows, which fixes an order SQL does not
  promise. So the source supports only the membership facts of `Umls.Restrict`,
  `Umls.RestrictConcepts`, `Umls.LookupCodeForName` and `Umls.PreferredLookupFiltersPlain`:
  which rows a preferred result holds. The order of those rows relative to the plain result
  is a property of this model alone. That includes `Umls.RestrictConcepts` returning its input
  unchanged when every concept is preferred.

  Every query is an oracle: a `Store` field, or a function parameter.
- `lookup_tty` (rxnorm.py:99-109) is a plain query. It appears as the `ttys` oracle of `RxNormLink.Store`.
- `lookup_related` (rxnorm.py:111-127) is not modelled. It selects `RXCUI2, RELA` for a given `RXCUI1`, and its only callers are inside `find_va_drug_class`, which is left out below. The `related` oracle of `RxNormLink.Store` is a different query: the reverse `SELECT rxcui1 … WHERE rxcui2 = ?` that rxnorm_link.py runs through `doQ`.
- `find_friendly_drug_classes`, `find_va_drug_class` and the `_lookup`/`_find`/`_store_va_drug_class` helpers (rxnorm.py:149-247, 293-352) are not modelled: they are database caching around the lookups modelled here.
- `initVA`, `traverseVA`'s round loop, `runImport` and its Couchbase client, and signal handling are left out. They are I/O around `walkVAs`, `toDrugClasses` and the helpers. `RxNormLink.VaMapping` holds `traverseVA`'s table, and `RxNormLink.VaMappingRelas` shows what it selects.
- rxnorm-graph.py is not part of this model. It is a command-line script.
- `write_dot_graph`'s temporary file, `subprocess.call` and printing are left out. The file name and the exit status are parameters.
- Subclasses that override `deliver_to` are not modelled. Only the two classes in graphable.py are.
- Graphable.Announce: requires that a relation has both endpoints when it is delivered. In Python, delivering one without them crashes with an `AttributeError`, and no object reachable from `should_announce` ever does this.
- Graphable.DotRepresentation: requires the source's endpoint to exist. Python crashes with an `AttributeError` when `relation_to` is set but `relation_from` is not.
- Graphable.WriteDotGraph: requires a non-empty output file, as the source's `assert` does.
- `GraphableObject` attributes that are `None` or `""` are treated alike. Every use in the source tests truthiness.
- Character classes are ASCII only: `\w`, `str.strip` whitespace, and `lower`/`upper`. Python applies them to all of Unicode.
- RxNorm.RxcuiForNdc: requires a non-empty NDC, as the source's `assert` does.
- RxNormLink.TreatmentIntents: requires term type IN for any input, as the helper's `assert` does. So do RxNormLink.Mechanism, RxNormLink.TreatmentIntentsHelper and RxNormLink.MechanismHelper.
- RxNormLink.IngredientsHelper: returns a set where the source's direct branch returns a list. Its only caller puts it into a set.
- RxNormLink.StoreVAs: requires a non-empty RXCUI and classes, as the source's asserts do. So do RxNormLink.StoreAll and RxNormLink.WalkVAs.
- RxNormLink.WalkVAs: also requires that no related RXCUI is empty, because `storeVAs` asserts this of each related RXCUI.
- Sqlite.New: models `database=None` as a failure. The handle's `sqlite3` connection is a session number.
- sqlite.py:203 calls `sys.exit` without importing `sys`. The SQL failure path and the CSV error path of `import_to` are left out.
- Sqlite.SanitizeField: states which characters remain but not their order.
- CSV parsing of the input file is left out. Rows arrive already split.
- `MongoDocHandler.__init__`'s environment parsing and the MongoDB client are left out. The collection is the log of batches.
- A document key that is present with the value `None` is not modelled. The CSV handler would write `None` for it. A `Doc` field of `None` means the key is absent.
- `CSVHandler` skips the plain handler's `addDocument`. It would crash on a missing document, so `LinkRun.CsvRow` takes a document.
- The `__main__` blocks and the `__str__` methods are not modelled.

## Findings

| source | as written | input that shows it | evidently intended | confidence | as-written member | corrected member |
|---|---|---|---|---|---|---|
| umls.py:88-113 | a negated hit is the bare string `[NEGATED] STR`, and `lookup_code_meaning` formats it by indexing `res[0]`, `res[1]`, `res[2]`, its first three characters | CUI `-C1` with one description row: the meaning is `[ (N)  [E]` | the negated row keeps its source and type and carries the marker in front of its name | high (not executed) | Umls.NegatedMeaningAsWritten | Umls.NegatedMeaning |

=== FILE: graphable.dfy ===
/**
  Graphviz serialisation of an object graph (`graphable.py`).

  Python tells graph objects apart by object identity, so here every object lives in a
  finite universe under an abstract id, and a relation refers to its endpoints by id.
  Attribute values that Python leaves as `None` or sets to `''` are both falsy and every use
  of them is guarded by a truth test, so both are written "" here.
 */
module Graphable {
  import opened Wrappers
  import opened Strings

  type Id = nat

  /** The display attributes shared by objects and relations. */
  datatype Attrs = Attrs(dotLabel: string, shape: string, style: string, color: string)

  /** A `GraphableObject` (a node) or a `GraphableRelation` (a directed edge). */
  datatype Graphable =
    | Node(nameField: string, attrs: Attrs)
    | Relation(relFrom: Option<Id>, relTo: Option<Id>, attrs: Attrs)

  /** Every graph object reachable in one rendering, by id. */
  type Universe = map<Id, Graphable>

  /** The `DotContext`: the set of announced objects and the text emitted so far. `delivered`
      records, in order, the objects whose text was appended; it is not a field of the Python
      class but the history that lets exactly-once delivery be stated. */
  datatype DotContext = DotContext(items: set<Id>, source: string, delivered: seq<Id>)

  /** A fresh context: nothing announced, nothing emitted. */
  const Empty := DotContext({}, "", [])

  // ------------------------------------------------------------------ per-object text

  predicate HasAttributes(a: Attrs)
  {
    a.dotLabel != "" || a.style != "" || a.color != "" || a.shape != ""
  }

  /** `name`: the object's name, or `unnamed` when none was given. A relation is constructed
      without a name, so its name is always the fallback. */
  function Name(g: Graphable): (r: string)
    ensures r != ""
    ensures g.Node? && g.nameField != "" ==> r == g.nameField
    ensures g.Relation? || g.nameField == "" ==> r == "unnamed"
  {
    if g.Node? && g.nameField != "" then g.nameField else "unnamed"
  }

  /** `should_announce`: an object wants declaring when it has some attribute; a relation
      when both of its endpoints are set. */
  predicate ShouldAnnounce(g: Graphable)
  {
    match g
    case Node(_, a) => HasAttributes(a)
    case Relation(f, t, _) => f.Some? && t.Some?
  }

  /** The `key=value` entries of `inner_dot`, in the order shape, style, color, label. */
  function AttributeEntries(a: Attrs): (r: seq<string>)
    ensures |r| == (if a.shape != "" then 1 else 0) + (if a.style != "" then 1 else 0)
                   + (if a.color != "" then 1 else 0) + (if a.dotLabel != "" then 1 else 0)
    ensures r == [] <==> !HasAttributes(a)
    ensures a.shape != "" ==> r[0] == "shape=" + a.shape
    ensures a.style != "" ==> r[if a.shape != "" then 1 else 0] == "style=" + a.style
    ensures a.color != "" ==>
              r[(if a.shape != "" then 1 else 0) + (if a.style != "" then 1 else 0)] == "color=" + a.color
    ensures a.dotLabel != "" ==> r[|r| - 1] == "label=\"" + a.dotLabel + "\""
  {
    (if a.shape != "" then ["shape=" + a.shape] else [])
    + (if a.style != "" then ["style=" + a.style] else [])
    + (if a.color != "" then ["color=" + a.color] else [])
    + (if a.dotLabel != "" then ["label=\"" + a.dotLabel + "\""] else [])
  }

  /** `inner_dot`: the bracketed attribute list, present exactly when there are attributes. */
  function InnerDot(a: Attrs): (r: Option<string>)
    ensures r.Some? <==> HasAttributes(a)
    ensures r.Some? ==> |r.value| >= 2 && r.value[0] == '[' && r.value[|r.value| - 1] == ']'
  {
    if HasAttributes(a) then Some("[" + Join(",", AttributeEntries(a)) + "]") else None
  }

  /** The bracketed list reads back as its entries when no attribute value holds a comma. */
  lemma InnerDotEntries(a: Attrs)
    requires HasAttributes(a)
    requires ',' !in a.dotLabel && ',' !in a.shape && ',' !in a.style && ',' !in a.color
    ensures var inner := InnerDot(a).value;
            Split(inner[1..|inner| - 1], ',') == AttributeEntries(a)
  {
    var es := AttributeEntries(a);
    var inner := InnerDot(a).value;
    assert inner[1..|inner| - 1] == Join([','], es);
    forall i | 0 <= i < |es|
      ensures ',' !in es[i]
    {
      var s, t, c, l := a.shape != "", a.style != "", a.color != "", a.dotLabel != "";
      assert ',' !in "shape=" && ',' !in "style=" && ',' !in "color=" && ',' !in "label=\"";
    }
    SplitJoin(es, ',');
  }

  /** `self.inner_dot() or ''`: the attribute list, or nothing. */
  function InnerText(a: Attrs): (r: string)
    ensures r == "" <==> !HasAttributes(a)
  {
    if HasAttributes(a) then InnerDot(a).value else ""
  }

  /** No attribute value holds a space. */
  predicate SpaceFree(a: Attrs)
  {
    ' ' !in a.dotLabel && ' ' !in a.shape && ' ' !in a.style && ' ' !in a.color
  }

  /** Without spaces in the values, the attribute list holds no space. */
  lemma InnerTextSpaceFree(a: Attrs)
    requires SpaceFree(a)
    ensures ' ' !in InnerText(a)
  {
    if HasAttributes(a) {
      var es := AttributeEntries(a);
      forall i | 0 <= i < |es|
        ensures ' ' !in es[i]
      {
        assert ' ' !in "shape=" && ' ' !in "style=" && ' ' !in "color=" && ' ' !in "label=\"";
      }
      JoinAvoids(",", es, ' ');
    }
  }

  /** Python raises when a relation with a target but no source is rendered. */
  predicate Renderable(u: Universe, g: Graphable)
  {
    g.Relation? && g.relTo.Some? ==> g.relFrom.Some? && g.relFrom.value in u && g.relTo.value in u
  }

  /** `dot_representation`: a node's declaration line, or a relation's edge line. */
  function DotRepresentation(u: Universe, g: Graphable): (r: string)
    requires Renderable(u, g)
    ensures g.Node? ==> (r == "\t" + Name(g) + ";\n" <==> !HasAttributes(g.attrs))
    ensures g.Relation? ==> (r == "" <==> g.relTo.None?)
    ensures r != "" ==> |r| >= 2 && r[0] == '\t' && r[|r| - 2..] == ";\n"
  {
    match g
    case Node(_, a) =>
      var inner := InnerDot(a);
      if inner.Some? then "\t" + Name(g) + " " + inner.value + ";\n"
      else "\t" + Name(g) + ";\n"
    case Relation(f, t, a) =>
      if t.Some? then
        "\t" + Name(u[f.value]) + " -> " + Name(u[t.value]) + " " + InnerText(a) + ";\n"
      else ""
  }

  /**
    The text of the lines: an attributed node is its name, a space, the attribute list and
    `;`; an edge is the source's name, an arrow, the target's name, a space, the attribute list
    (possibly empty) and `;`.
   */
  lemma DotRepresentationText(u: Universe, g: Graphable)
    requires Renderable(u, g)
    ensures g.Node? && HasAttributes(g.attrs) ==>
              DotRepresentation(u, g) == "\t" + Name(g) + " " + InnerDot(g.attrs).value + ";\n"
    ensures g.Relation? && g.relTo.Some? ==>
              DotRepresentation(u, g)
              == "\t" + Name(u[g.relFrom.value]) + " -> " + Name(u[g.relTo.value]) + " " + InnerText(g.attrs) + ";\n"
  {
  }

  /**
    An edge line reads back: between the tab and the closing `;`, its space-separated words are
    the source's name, the arrow, the target's name and the attribute list (empty without
    attributes), provided no name or attribute value holds a space.
   */
  lemma EdgeLineReadsBack(u: Universe, g: Graphable)
    requires Renderable(u, g) && g.Relation? && g.relTo.Some?
    requires ' ' !in Name(u[g.relFrom.value]) && ' ' !in Name(u[g.relTo.value]) && SpaceFree(g.attrs)
    ensures var r := DotRepresentation(u, g);
            |r| >= 3 && Split(r[1..|r| - 2], ' ') == [Name(u[g.relFrom.value]), "->", Name(u[g.relTo.value]), InnerText(g.attrs)]
  {
    var f, t, i := Name(u[g.relFrom.value]), Name(u[g.relTo.value]), InnerText(g.attrs);
    DotRepresentationText(u, g);
    LemmaEdgeWords(f, t, i);
    LemmaFramed(f + " -> " + t + " " + i);
    InnerTextSpaceFree(g.attrs);
    SplitJoin([f, "->", t, i], ' ');
  }

  /** The middle of an edge line is its four words joined by spaces. */
  lemma LemmaEdgeWords(f: string, t: string, i: string)
    ensures "\t" + f + " -> " + t + " " + i + ";\n" == "\t" + (f + " -> " + t + " " + i) + ";\n"
    ensures f + " -> " + t + " " + i == Join([' '], [f, "->", t, i])
  {
    var xs := [f, "->", t, i];
    assert Join([' '], xs[3..]) == i;
    assert Join([' '], xs[2..]) == t + " " + i;
    assert Join([' '], xs[1..]) == "->" + " " + (t + " " + i);
    assert " -> " == " " + "->" + " ";
  }

  /** Cutting the tab and the closing `;` and line break off a line gives its middle back. */
  lemma LemmaFramed(m: string)
    ensures var r := "\t" + m + ";\n"; |r| == |m| + 3 && r[1..|r| - 2] == m
  {
  }

  /**
    A node line with attributes reads back: its space-separated words are the name and the
    bracketed attribute list, provided neither the name nor any value holds a space.
   */
  lemma NodeLineReadsBack(u: Universe, g: Graphable)
    requires g.Node? && HasAttributes(g.attrs)
    requires ' ' !in Name(g) && SpaceFree(g.attrs)
    ensures var r := DotRepresentation(u, g);
            |r| >= 3 && Split(r[1..|r| - 2], ' ') == [Name(g), InnerDot(g.attrs).value]
  {
    var n, i := Name(g), InnerDot(g.attrs).value;
    DotRepresentationText(u, g);
    assert "\t" + n + " " + i + ";\n" == "\t" + (n + " " + i) + ";\n";
    LemmaFramed(n + " " + i);
    assert Join([' '], [n, i]) == n + " " + i by {
      assert Join([' '], [n, i][1..]) == i;
    }
    InnerTextSpaceFree(g.attrs);
    SplitJoin([n, i], ' ');
  }

  // ------------------------------------------------------------------ the traversal

  /** Every endpoint a relation names is an object of the universe. */
  predicate WellFormed(u: Universe)
  {
    forall k | k in u :: EndpointsKnown(u, u[k])
  }

  predicate EndpointsKnown(u: Universe, g: Graphable)
  {
    g.Relation? ==> (g.relFrom.Some? ==> g.relFrom.value in u) && (g.relTo.Some? ==> g.relTo.value in u)
  }

  /** `DotContext.announce` may be given any node, and a relation only when both endpoints are
      set (`deliver_to` dereferences both). */
  predicate Deliverable(g: Graphable)
  {
    g.Node? || ShouldAnnounce(g)
  }

  predicate LogRenderable(u: Universe, s: seq<Id>)
  {
    forall i | 0 <= i < |s| :: s[i] in u && Renderable(u, u[s[i]])
  }

  /** The text of delivering `s` in order. */
  function Lines(u: Universe, s: seq<Id>): string
    requires LogRenderable(u, s)
  {
    if |s| == 0 then "" else Lines(u, s[..|s| - 1]) + DotRepresentation(u, u[s[|s| - 1]])
  }

  predicate NoDup(s: seq<Id>)
  {
    forall i, j | 0 <= i < j < |s| :: s[i] != s[j]
  }

  /** A node endpoint that wants declaring occurs in `prefix`. */
  predicate EndpointDeclared(u: Universe, e: Option<Id>, prefix: seq<Id>)
  {
    e.Some? && e.value in u && u[e.value].Node? && ShouldAnnounce(u[e.value]) ==> e.value in prefix
  }

  /** Every edge line comes after the declaration lines of its node endpoints. Relation endpoints
      are not covered: of two relations naming each other, the second delivers while the first
      still waits to deliver its own line. */
  predicate EdgesAfterEndpoints(u: Universe, log: seq<Id>)
  {
    forall i | 0 <= i < |log| && log[i] in u && u[log[i]].Relation? ::
      EndpointDeclared(u, u[log[i]].relFrom, log[..i]) && EndpointDeclared(u, u[log[i]].relTo, log[..i])
  }

  /** An endpoint that wants announcing has been announced. */
  predicate EndpointAnnounced(u: Universe, e: Option<Id>, items: set<Id>)
  {
    e.Some? && e.value in u && ShouldAnnounce(u[e.value]) ==> e.value in items
  }

  /**
    What every reachable context satisfies: delivered objects were announced; every announced
    node other than those in `pending` was delivered at once; delivered edges follow their node
    endpoints; and the announceable endpoints of delivered edges were announced.
   */
  predicate Consistent(u: Universe, ctx: DotContext, pending: set<Id>)
  {
    && (forall k | k in ctx.delivered :: k in ctx.items)
    && (forall k | k in ctx.items && k !in pending && k in u && u[k].Node? :: k in ctx.delivered)
    && EdgesAfterEndpoints(u, ctx.delivered)
    && (forall i | 0 <= i < |ctx.delivered| && ctx.delivered[i] in u && u[ctx.delivered[i]].Relation? ::
          EndpointAnnounced(u, u[ctx.delivered[i]].relFrom, ctx.items)
          && EndpointAnnounced(u, u[ctx.delivered[i]].relTo, ctx.items))
  }

  /**
    `r` grew from `ctx` by appending only: it announced more, its history and text extend the
    old ones, and what it delivered anew is exactly what it announced anew (plus `extra`),
    each once, with exactly those objects' lines appended to the text.
   */
  ghost predicate Grows(u: Universe, ctx: DotContext, r: DotContext, extra: set<Id>)
  {
    && ctx.items <= r.items
    && ctx.delivered <= r.delivered
    && (var added := r.delivered[|ctx.delivered|..];
        && NoDup(added)
        && (forall k :: k in added <==> (k in r.items && k !in ctx.items) || k in extra)
        && LogRenderable(u, added)
        && r.source == ctx.source + Lines(u, added))
  }

  /** Every object in `after` but not in `before` wants announcing. */
  predicate OnlyWanted(u: Universe, before: set<Id>, after: set<Id>)
  {
    forall k | k in after && k !in before :: k in u && ShouldAnnounce(u[k])
  }

  /** `b` is an endpoint of the relation `a`: announcing `a` hands `b` to the context. */
  predicate Step(u: Universe, a: Id, b: Id)
  {
    a in u && u[a].Relation? && (u[a].relFrom == Some(b) || u[a].relTo == Some(b))
  }

  /** A walk that goes from each relation to one of its endpoints. */
  predicate IsWalk(u: Universe, p: seq<Id>)
  {
    |p| > 0 && forall i | 0 <= i < |p| - 1 :: Step(u, p[i], p[i + 1])
  }

  /** `k` is reached from `from` by following relations to their endpoints. */
  ghost predicate Linked(u: Universe, from: Id, k: Id)
  {
    exists p :: IsWalk(u, p) && p[0] == from && p[|p| - 1] == k
  }

  /** Every object in `after` but not in `before` is reached from `from`. */
  ghost predicate Reached(u: Universe, from: Id, before: set<Id>, after: set<Id>)
  {
    forall k | k in after && k !in before :: Linked(u, from, k)
  }

  /** An object reaches itself. */
  lemma LinkedSelf(u: Universe, k: Id)
    ensures Linked(u, k, k)
  {
    assert IsWalk(u, [k]);
  }

  /** Whatever an endpoint reaches, its relation reaches too. */
  lemma LinkedStep(u: Universe, a: Id, b: Id, k: Id)
    requires Step(u, a, b) && Linked(u, b, k)
    ensures Linked(u, a, k)
  {
    var p :| IsWalk(u, p) && p[0] == b && p[|p| - 1] == k;
    var q := [a] + p;
    assert forall i | 0 < i < |q| :: q[i] == p[i - 1];
    assert IsWalk(u, q);
  }

  /** What an endpoint newly announced, its relation reached. */
  lemma ReachedStep(u: Universe, a: Id, b: Id, before: set<Id>, after: set<Id>)
    requires Step(u, a, b) && Reached(u, b, before, after)
    ensures Reached(u, a, before, after)
  {
    forall k | k in after && k !in before
      ensures Linked(u, a, k)
    {
      LinkedStep(u, a, b, k);
    }
  }

  /** A walk from a node goes nowhere: a node names no endpoint. */
  lemma {:induction false} NodeLinksOnlyItself(u: Universe, n: Id, k: Id)
    requires n in u && u[n].Node? && Linked(u, n, k)
    ensures k == n
  {
    var p :| IsWalk(u, p) && p[0] == n && p[|p| - 1] == k;
    assert |p| > 1 ==> Step(u, p[0], p[1]);
  }

  /** The object itself is reached from itself, so announcing it first changes nothing. */
  lemma ReachedSelf(u: Universe, id: Id, before: set<Id>, after: set<Id>)
    requires Reached(u, id, before + {id}, after)
    ensures Reached(u, id, before, after)
  {
    LinkedSelf(u, id);
  }

  /** `DotContext.deliver`: append the object's text. */
  function Deliver(u: Universe, ctx: DotContext, id: Id): (r: DotContext)
    requires id in u && Renderable(u, u[id])
    requires id in ctx.items && id !in ctx.delivered
    ensures Grows(u, ctx, r, {id})
    ensures r.items == ctx.items
  {
    var r := DotContext(ctx.items, ctx.source + DotRepresentation(u, u[id]), ctx.delivered + [id]);
    assert r.delivered[|ctx.delivered|..] == [id];
    assert Lines(u, [id]) == DotRepresentation(u, u[id]) by {
      assert [id][..0] == [];
    }
    r
  }

  /**
    `DotContext.announce`: an object already announced is ignored; otherwise it is added to
    `items` BEFORE its `deliver_to` runs, which is what stops a cyclic object graph from being
    walked forever and makes every object's text appear at most once.
   */
  function Announce(u: Universe, ctx: DotContext, id: Id): (r: DotContext)
    requires WellFormed(u) && id in u && Deliverable(u[id])
    requires Consistent(u, ctx, {})
    ensures Grows(u, ctx, r, {})
    ensures Consistent(u, r, {})
    ensures id in r.items
    ensures id in ctx.items ==> r == ctx
    ensures OnlyWanted(u, ctx.items + {id}, r.items)
    ensures Reached(u, id, ctx.items, r.items)
    decreases u.Keys - ctx.items, 0
  {
    if id in ctx.items then
      assert ctx.delivered[|ctx.delivered|..] == [];
      ctx
    else
      var ctx' := ctx.(items := ctx.items + {id});
      var r := DeliverTo(u, ctx', id);
      ReachedSelf(u, id, ctx.items, r.items);
      r
  }

  /** `announce_to`: hand the object to the context only if it wants declaring. */
  function AnnounceTo(u: Universe, ctx: DotContext, id: Id): (r: DotContext)
    requires WellFormed(u) && id in u
    requires Consistent(u, ctx, {})
    ensures Grows(u, ctx, r, {})
    ensures Consistent(u, r, {})
    ensures ShouldAnnounce(u[id]) ==> id in r.items
    ensures !ShouldAnnounce(u[id]) ==> r == ctx
    ensures OnlyWanted(u, ctx.items, r.items)
    ensures Reached(u, id, ctx.items, r.items)
    decreases u.Keys - ctx.items, 1
  {
    if ShouldAnnounce(u[id]) then Announce(u, ctx, id)
    else
      assert ctx.delivered[|ctx.delivered|..] == [];
      ctx
  }

  /**
    `deliver_to`: a node delivers itself; a relation first announces both endpoints and then
    delivers itself, so its line is the last one this call appends.
   */
  function DeliverTo(u: Universe, ctx: DotContext, id: Id): (r: DotContext)
    requires WellFormed(u) && id in u && Deliverable(u[id])
    requires id in ctx.items && id !in ctx.delivered
    requires Consistent(u, ctx, {id})
    ensures Grows(u, ctx, r, {id})
    ensures Consistent(u, r, {})
    ensures |r.delivered| > 0 && r.delivered[|r.delivered| - 1] == id
    ensures OnlyWanted(u, ctx.items, r.items)
    ensures Reached(u, id, ctx.items, r.items)
    decreases u.Keys - ctx.items, 2
  {
    match u[id]
    case Node(_, _) =>
      var r := Deliver(u, ctx, id);
      LemmaAppendConsistent(u, ctx, id);
      r
    case Relation(f, t, _) =>
      assert Consistent(u, ctx, {});
      var c1 := AnnounceTo(u, ctx, f.value);
      var c2 := AnnounceTo(u, c1, t.value);
      LemmaRelationStep(u, ctx, id, c1, c2);
      Deliver(u, c2, id)
  }

  /** The relation case of `DeliverTo`: once both endpoints are announced, delivering it is sound. */
  lemma LemmaRelationStep(u: Universe, ctx: DotContext, id: Id, c1: DotContext, c2: DotContext)
    requires WellFormed(u) && id in u && u[id].Relation? && Deliverable(u[id])
    requires id in ctx.items && id !in ctx.delivered
    requires Grows(u, ctx, c1, {}) && Grows(u, c1, c2, {})
    requires Consistent(u, c2, {})
    requires ShouldAnnounce(u[u[id].relFrom.value]) ==> u[id].relFrom.value in c1.items
    requires ShouldAnnounce(u[u[id].relTo.value]) ==> u[id].relTo.value in c2.items
    requires OnlyWanted(u, ctx.items, c1.items) && OnlyWanted(u, c1.items, c2.items)
    requires Reached(u, u[id].relFrom.value, ctx.items, c1.items) && Reached(u, u[id].relTo.value, c1.items, c2.items)
    ensures id in u && Renderable(u, u[id]) && id in c2.items && id !in c2.delivered
    ensures OnlyWanted(u, ctx.items, Deliver(u, c2, id).items)
    ensures Reached(u, id, ctx.items, Deliver(u, c2, id).items)
    ensures Grows(u, ctx, Deliver(u, c2, id), {id})
    ensures Consistent(u, Deliver(u, c2, id), {})
    ensures |Deliver(u, c2, id).delivered| > 0 && Deliver(u, c2, id).delivered[|Deliver(u, c2, id).delivered| - 1] == id
  {
    LemmaGrowsTrans(u, ctx, c1, c2, {});
    LemmaPrefixIn(c1.delivered, c2.delivered);
    assert id !in c2.delivered;
    assert EndpointAnnounced(u, u[id].relFrom, c2.items);
    LemmaDeliverLast(u, ctx, id, c2);
    ReachedStep(u, id, u[id].relFrom.value, ctx.items, c1.items);
    ReachedStep(u, id, u[id].relTo.value, c1.items, c2.items);
  }

  /** Delivering a relation whose endpoints are announced extends the growth by that relation. */
  lemma LemmaDeliverLast(u: Universe, ctx: DotContext, id: Id, c2: DotContext)
    requires WellFormed(u) && id in u && u[id].Relation? && Deliverable(u[id])
    requires id in ctx.items && id !in c2.delivered
    requires Grows(u, ctx, c2, {}) && Consistent(u, c2, {})
    requires EndpointAnnounced(u, u[id].relFrom, c2.items) && EndpointAnnounced(u, u[id].relTo, c2.items)
    ensures Renderable(u, u[id]) && id in c2.items
    ensures Grows(u, ctx, Deliver(u, c2, id), {id})
    ensures Consistent(u, Deliver(u, c2, id), {})
    ensures |Deliver(u, c2, id).delivered| > 0 && Deliver(u, c2, id).delivered[|Deliver(u, c2, id).delivered| - 1] == id
  {
    var r := Deliver(u, c2, id);
    LemmaGrowsTrans(u, ctx, c2, r, {id});
    LemmaAppendConsistent(u, c2, id);
  }

  /** The context after `obj.announce_to(DotContext())`, as `write_dot_graph` builds it. */
  function Render(u: Universe, root: Id): (r: DotContext)
    requires WellFormed(u) && root in u
    ensures NoDup(r.delivered)
    ensures forall k :: k in r.delivered <==> k in r.items
    ensures r.items <= u.Keys
    ensures LogRenderable(u, r.delivered)
    ensures r.source == Lines(u, r.delivered)
    ensures EdgesAfterEndpoints(u, r.delivered)
    ensures forall k | k in r.items && u[k].Relation? ::
              EndpointAnnounced(u, u[k].relFrom, r.items) && EndpointAnnounced(u, u[k].relTo, r.items)
    ensures root in r.items <==> ShouldAnnounce(u[root])
    ensures forall k | k in r.items :: ShouldAnnounce(u[k])
    ensures forall k | k in r.items && u[k].Node? :: DotRepresentation(u, u[k]) != "\t" + Name(u[k]) + ";\n"
    ensures forall k | k in r.items :: Linked(u, root, k)
    ensures !ShouldAnnounce(u[root]) ==> r == Empty
  {
    var r := AnnounceTo(u, Empty, root);
    assert r.delivered[0..] == r.delivered;
    forall k | k in r.items && u[k].Relation?
      ensures EndpointAnnounced(u, u[k].relFrom, r.items) && EndpointAnnounced(u, u[k].relTo, r.items)
    {
      var i :| 0 <= i < |r.delivered| && r.delivered[i] == k;
    }
    r
  }

  /** Rendering from a node declares at most that node: nothing is reached through a node. */
  lemma NodeRendersAlone(u: Universe, root: Id)
    requires WellFormed(u) && root in u && u[root].Node?
    ensures Render(u, root).items <= {root}
  {
    var items := Render(u, root).items;
    forall k | k in items
      ensures k == root
    {
      NodeLinksOnlyItself(u, root, k);
    }
  }

  /** A node root's text is its own declaration line, or nothing when it has no attributes. */
  lemma NodeRendersOwnLine(u: Universe, root: Id)
    requires WellFormed(u) && root in u && u[root].Node?
    ensures HasAttributes(u[root].attrs) <==> Render(u, root).delivered == [root]
    ensures !HasAttributes(u[root].attrs) ==> Render(u, root).source == ""
  {
    var r := Render(u, root);
    if HasAttributes(u[root].attrs) {
      NodeRendersAlone(u, root);
      RenderLogSize(u, root);
      assert r.items == {root};
      assert |r.delivered| == 1;
      assert r.delivered[0] in r.items;
      assert r.delivered == [root];
    } else {
      assert r == Empty;
    }
  }

  /**
    Two relations naming each other as source and both pointing at a node with attributes.
    Rendering from one of them terminates, reaches all three objects and logs each of them
    once (the log is duplicate-free by the contract of `Render`).
   */
  predicate RelationCycle(u: Universe, n: Id, a: Id, b: Id)
  {
    && n in u && a in u && b in u
    && u[n].Node? && HasAttributes(u[n].attrs)
    && u[a].Relation? && u[a].relFrom == Some(b) && u[a].relTo == Some(n)
    && u[b].Relation? && u[b].relFrom == Some(a) && u[b].relTo == Some(n)
  }

  lemma CycleRendersEachOnce(u: Universe, n: Id, a: Id, b: Id)
    requires WellFormed(u) && RelationCycle(u, n, a, b)
    ensures {n, a, b} <= Render(u, a).items
    ensures n in Render(u, a).delivered && a in Render(u, a).delivered && b in Render(u, a).delivered
    ensures |Render(u, a).delivered| == |Render(u, a).items|
  {
    var r := Render(u, a);
    CycleReached(u, n, a, b);
    assert n in r.items && a in r.items && b in r.items;
    RenderLogSize(u, a);
  }

  /** The rendering reaches both relations of the cycle and the node they point at. */
  lemma CycleReached(u: Universe, n: Id, a: Id, b: Id)
    requires WellFormed(u) && RelationCycle(u, n, a, b)
    ensures {n, a, b} <= Render(u, a).items
  {
    var items := Render(u, a).items;
    assert a in items;
    assert EndpointAnnounced(u, Some(b), items);
    assert EndpointAnnounced(u, Some(n), items);
  }

  /** Such a cycle exists: the model admits it without any precondition failing. */
  function CycleExample(): (u: Universe)
    ensures WellFormed(u) && RelationCycle(u, 0, 1, 2)
  {
    var plain := Attrs("", "", "", "");
    map[0 := Node("N", Attrs("n", "", "", "")), 1 := Relation(Some(2), Some(0), plain), 2 := Relation(Some(1), Some(0), plain)]
  }

  /** The log of a rendering has one entry per announced object. */
  lemma RenderLogSize(u: Universe, root: Id)
    requires WellFormed(u) && root in u
    ensures |Render(u, root).delivered| == |Render(u, root).items|
  {
    var r := Render(u, root);
    LemmaNoDupCard(r.delivered, r.items);
  }

  /** A duplicate-free log whose members are exactly `items` is as long as `items` is large. */
  lemma {:induction false} LemmaNoDupCard(s: seq<Id>, items: set<Id>)
    requires NoDup(s)
    requires forall k :: k in s <==> k in items
    ensures |s| == |items|
    decreases |s|
  {
    if |s| > 0 {
      var rest := s[1..];
      assert NoDup(rest);
      assert s[0] !in rest;
      forall k
        ensures k in rest <==> k in items - {s[0]}
      {
        if k in rest {
          var j :| 0 <= j < |rest| && rest[j] == k;
          assert s[j + 1] == k;
        }
        if k in s && k != s[0] {
          var j :| 0 <= j < |s| && s[j] == k;
          assert rest[j - 1] == k;
        }
      }
      LemmaNoDupCard(rest, items - {s[0]});
    } else {
      assert items == {};
    }
  }

  // ------------------------------------------------------------------ the document and the command

  /** A `GraphvizGraphic`: the renderer binary, its output format and output file. */
  datatype GraphvizGraphic = GraphvizGraphic(cmd: string, outType: string, outFile: string)

  /** `GraphvizGraphic(outfile)`: `dot` producing PNG. */
  function NewGraphic(outFile: string): (g: GraphvizGraphic)
    ensures g.outFile == outFile && g.cmd == "dot" && g.outType == "png"
  {
    GraphvizGraphic("dot", "png", outFile)
  }

  /** `command`: the renderer's argument vector. */
  function Command(g: GraphvizGraphic, infile: string): (r: seq<string>)
    ensures |r| == 4 && r[0] == g.cmd && r[3] == infile
    ensures |r[1]| >= 2 && r[1][..2] == "-T" && r[1][2..] == g.outType
    ensures |r[2]| >= 2 && r[2][..2] == "-o" && r[2][2..] == g.outFile
  {
    [g.cmd, "-T" + g.outType, "-o" + g.outFile, infile]
  }

  const DocumentHead := "digraph G {\n"
  const DocumentTail := "}\n"

  /** The `digraph G { ... }` document wrapped around the context's text. */
  function Document(source: string): (r: string)
    ensures |r| == |source| + 14
    ensures r[..12] == DocumentHead && r[|r| - 2..] == DocumentTail
    ensures r[12..|r| - 2] == source
  {
    DocumentHead + source + DocumentTail
  }

  /** What `write_dot_graph` produced: the document it wrote and the command it ran. */
  datatype Rendering = Rendering(document: string, command: seq<string>)

  /**
    `write_dot_graph`: announce the root to a fresh context, wrap the text, and run the
    renderer on the temporary file `tmpName`; an exit status above zero raises with the command.
   */
  function WriteDotGraph(g: GraphvizGraphic, u: Universe, root: Id, tmpName: string, exitStatus: int)
    : (r: Result<Rendering, seq<string>>)
    requires g.outFile != ""
    requires WellFormed(u) && root in u
    ensures r.Failure? <==> exitStatus > 0
    ensures r.Failure? ==> r.error == Command(g, tmpName)
    ensures r.Success? ==> r.value.command == Command(g, tmpName)
    ensures r.Success? ==> r.value.document == Document(Lines(u, Render(u, root).delivered))
  {
    var doc := Document(Render(u, root).source);
    var cmd := Command(g, tmpName);
    if exitStatus > 0 then Failure(cmd) else Success(Rendering(doc, cmd))
  }

  // ------------------------------------------------------------------ bookkeeping lemmas

  lemma LemmaPrefixIn(a: seq<Id>, b: seq<Id>)
    requires a <= b
    ensures forall k | k in a :: k in b
  {
    forall k | k in a
      ensures k in b
    {
      var i :| 0 <= i < |a| && a[i] == k;
      assert b[i] == k;
    }
  }

  lemma LemmaLinesAppend(u: Universe, a: seq<Id>, b: seq<Id>)
    requires LogRenderable(u, a) && LogRenderable(u, b)
    ensures LogRenderable(u, a + b)
    ensures Lines(u, a + b) == Lines(u, a) + Lines(u, b)
    decreases |b|
  {
    forall i | 0 <= i < |a + b|
      ensures (a + b)[i] in u && Renderable(u, u[(a + b)[i]])
    {
      if i < |a| {
        assert (a + b)[i] == a[i];
      } else {
        assert (a + b)[i] == b[i - |a|];
      }
    }
    if |b| == 0 {
      assert a + b == a;
    } else {
      var b' := b[..|b| - 1];
      forall i | 0 <= i < |b'|
        ensures b'[i] in u && Renderable(u, u[b'[i]])
      {
        assert b'[i] == b[i];
      }
      LemmaLinesAppend(u, a, b');
      assert (a + b)[..|a + b| - 1] == a + b';
      assert (a + b)[|a + b| - 1] == b[|b| - 1];
    }
  }

  lemma LemmaNoDupConcat(n1: seq<Id>, n2: seq<Id>)
    requires NoDup(n1) && NoDup(n2)
    requires forall k | k in n1 :: k !in n2
    ensures NoDup(n1 + n2)
  {
    var n := n1 + n2;
    forall i, j | 0 <= i < j < |n|
      ensures n[i] != n[j]
    {
      if j < |n1| {
        assert n[i] == n1[i] && n[j] == n1[j];
      } else if i >= |n1| {
        assert n[i] == n2[i - |n1|] && n[j] == n2[j - |n1|];
      } else {
        assert n[i] == n1[i] && n1[i] in n1;
        assert n[j] == n2[j - |n1|];
      }
    }
  }

  lemma LemmaSourceTrans(u: Universe, s0: string, s1: string, s2: string, n1: seq<Id>, n2: seq<Id>)
    requires LogRenderable(u, n1) && LogRenderable(u, n2)
    requires s1 == s0 + Lines(u, n1) && s2 == s1 + Lines(u, n2)
    ensures LogRenderable(u, n1 + n2)
    ensures s2 == s0 + Lines(u, n1 + n2)
  {
    LemmaLinesAppend(u, n1, n2);
    LemmaAppendAssoc(s0, Lines(u, n1), Lines(u, n2));
  }

  lemma LemmaAppendAssoc(x: string, y: string, z: string)
    ensures (x + y) + z == x + (y + z)
  {
  }

  lemma LemmaSliceConcat(a: seq<Id>, b: seq<Id>, c: seq<Id>)
    requires a <= b && b <= c
    ensures c[|a|..] == b[|a|..] + c[|b|..]
  {
  }

  lemma LemmaAddedTrans(a: DotContext, b: DotContext, c: DotContext, extra: set<Id>)
    requires a.items <= b.items <= c.items
    requires a.delivered <= b.delivered && b.delivered <= c.delivered
    requires extra <= a.items
    requires NoDup(b.delivered[|a.delivered|..]) && NoDup(c.delivered[|b.delivered|..])
    requires forall k :: k in b.delivered[|a.delivered|..] <==> k in b.items && k !in a.items
    requires forall k :: k in c.delivered[|b.delivered|..] <==> (k in c.items && k !in b.items) || k in extra
    ensures NoDup(c.delivered[|a.delivered|..])
    ensures forall k :: k in c.delivered[|a.delivered|..] <==> (k in c.items && k !in a.items) || k in extra
  {
    var n1 := b.delivered[|a.delivered|..];
    var n2 := c.delivered[|b.delivered|..];
    var n := c.delivered[|a.delivered|..];
    assert n == n1 + n2;
    LemmaNoDupConcat(n1, n2);
    forall k
      ensures k in n <==> (k in c.items && k !in a.items) || k in extra
    {
      assert k in n <==> k in n1 || k in n2;
    }
  }

  /** Growth composes: a step that announced nothing extra followed by any step. */
  lemma LemmaGrowsTrans(u: Universe, a: DotContext, b: DotContext, c: DotContext, extra: set<Id>)
    requires Grows(u, a, b, {}) && Grows(u, b, c, extra)
    requires extra <= a.items
    ensures Grows(u, a, c, extra)
  {
    LemmaSliceConcat(a.delivered, b.delivered, c.delivered);
    LemmaSourceTrans(u, a.source, b.source, c.source, b.delivered[|a.delivered|..], c.delivered[|b.delivered|..]);
    LemmaAddedTrans(a, b, c, extra);
  }

  /** Appending an object whose announced node endpoints are already delivered keeps the context consistent. */
  lemma LemmaAppendConsistent(u: Universe, ctx: DotContext, id: Id)
    requires WellFormed(u) && id in u && Deliverable(u[id])
    requires id in ctx.items
    requires Consistent(u, ctx, {id})
    requires u[id].Relation? ==> Consistent(u, ctx, {})
    requires u[id].Relation? ==>
      EndpointAnnounced(u, u[id].relFrom, ctx.items) && EndpointAnnounced(u, u[id].relTo, ctx.items)
    ensures Consistent(u, ctx.(delivered := ctx.delivered + [id]), {})
  {
    var log := ctx.delivered + [id];
    if u[id].Relation? {
      assert EndpointDeclared(u, u[id].relFrom, ctx.delivered);
      assert EndpointDeclared(u, u[id].relTo, ctx.delivered);
    }
    forall i | 0 <= i < |log| && log[i] in u && u[log[i]].Relation?
      ensures EndpointDeclared(u, u[log[i]].relFrom, log[..i]) && EndpointDeclared(u, u[log[i]].relTo, log[..i])
    {
      if i < |ctx.delivered| {
        assert log[..i] == ctx.delivered[..i];
      } else {
        assert log[..i] == ctx.delivered;
      }
    }
  }
}

=== FILE: link_run.dfy ===
/**
  The document sinks of the RxNorm linking run: the plain handler that collects documents, the
  MongoDB handler that hands them over in batches of fifty, and the CSV handler's line format.
  The MongoDB collection is represented by the log of batches it received.
 */
module LinkRun {
  import opened Wrappers
  import opened Strings

  // ---------------------------------------------------------------- plain handler

  /** `DocHandler.addDocument`: a missing document is ignored, any other one appended. */
  function AddDocument<T>(documents: seq<T>, doc: Option<T>): (r: seq<T>)
    ensures doc.None? ==> r == documents
    ensures doc.Some? ==> r == documents + [doc.value]
  {
    match doc
    case None => documents
    case Some(d) => documents + [d]
  }

  /** The documents of a stream of (possibly missing) documents that are present, in order. */
  function Present<T>(docs: seq<Option<T>>): seq<T>
  {
    if |docs| == 0 then [] else AddDocument(Present(docs[..|docs| - 1]), docs[|docs| - 1])
  }

  /** Feeding a stream to the plain handler leaves exactly the present documents behind. */
  function AddAll<T>(documents: seq<T>, docs: seq<Option<T>>): (r: seq<T>)
    ensures r == documents + Present(docs)
    decreases |docs|
  {
    if |docs| == 0 then documents
    else
      var rest := AddAll(documents, docs[..|docs| - 1]);
      AddDocument(rest, docs[|docs| - 1])
  }

  /** Every present document of the stream, and nothing else, is kept. */
  lemma {:induction false} PresentMembers<T>(docs: seq<Option<T>>, d: T)
    ensures d in Present(docs) <==> Some(d) in docs
    decreases |docs|
  {
    if |docs| > 0 {
      var init := docs[..|docs| - 1];
      PresentMembers(init, d);
      assert docs == init + [docs[|docs| - 1]];
    }
  }

  // ---------------------------------------------------------------- MongoDB handler

  /** The number of documents after which the MongoDB handler flushes its buffer. */
  const BatchSize := 50

  /** The handler's pending buffer and the batches handed to the collection so far. */
  datatype Mongo<T> = Mongo(buffer: seq<T>, batches: seq<seq<T>>)

  /** The documents the collection holds, in insertion order. */
  function Flatten<T>(batches: seq<seq<T>>): seq<T>
  {
    if |batches| == 0 then [] else Flatten(batches[..|batches| - 1]) + batches[|batches| - 1]
  }

  /** Everything the handler was given: what was inserted, then what is still buffered. */
  function Seen<T>(m: Mongo<T>): seq<T>
  {
    Flatten(m.batches) + m.buffer
  }

  /** A fresh handler: nothing buffered, nothing inserted. */
  function Empty<T>(): (m: Mongo<T>)
    ensures Seen(m) == []
  {
    Mongo([], [])
  }

  /** `_insertAndClear`: a non-empty buffer becomes one more batch; the buffer ends empty. */
  function InsertAndClear<T>(m: Mongo<T>): (r: Mongo<T>)
    ensures r.buffer == []
    ensures Seen(r) == Seen(m)
    ensures |m.buffer| > 0 ==> r.batches == m.batches + [m.buffer]
    ensures |m.buffer| == 0 ==> r.batches == m.batches
  {
    if |m.buffer| > 0 then
      var r := Mongo([], m.batches + [m.buffer]);
      assert r.batches[..|r.batches| - 1] == m.batches;
      r
    else Mongo([], m.batches)
  }

  /** `MongoDocHandler.addDocument`: append, then flush when the buffer reaches a multiple of 50. */
  function MongoAdd<T>(m: Mongo<T>, doc: Option<T>): (r: Mongo<T>)
    ensures Seen(r) == AddDocument(Seen(m), doc)
    ensures |r.buffer| % BatchSize != 0 || r.buffer == []
  {
    var docs := AddDocument(m.buffer, doc);
    if |docs| % BatchSize == 0 then InsertAndClear(Mongo(docs, m.batches))
    else Mongo(docs, m.batches)
  }

  /** `finalize`: whatever is still buffered is inserted. */
  function Finalize<T>(m: Mongo<T>): (r: Mongo<T>)
    ensures r.buffer == [] && Flatten(r.batches) == Seen(m)
  {
    InsertAndClear(m)
  }

  /** Between calls the buffer is short of a batch, and every batch handed over is full. */
  ghost predicate Steady<T>(m: Mongo<T>)
  {
    |m.buffer| < BatchSize && forall i :: 0 <= i < |m.batches| ==> |m.batches[i]| == BatchSize
  }

  /** `addDocument` keeps the handler steady: it flushes exactly when the buffer fills. */
  lemma MongoAddSteady<T>(m: Mongo<T>, doc: Option<T>)
    requires Steady(m)
    ensures Steady(MongoAdd(m, doc))
    ensures |MongoAdd(m, doc).batches| <= |m.batches| + 1
  {
    var docs := AddDocument(m.buffer, doc);
    if |docs| % BatchSize == 0 && |docs| > 0 {
      assert |docs| == BatchSize;
      var r := MongoAdd(m, doc);
      assert r.batches == m.batches + [docs];
    }
  }

  /** A whole run: every document of the stream passed to `addDocument` in turn. */
  function Run<T>(docs: seq<Option<T>>): (m: Mongo<T>)
    ensures Seen(m) == Present(docs)
    decreases |docs|
  {
    if |docs| == 0 then Empty()
    else MongoAdd(Run(docs[..|docs| - 1]), docs[|docs| - 1])
  }

  /** During a run the buffer never holds a full batch and every insert is exactly fifty long. */
  lemma {:induction false} RunSteady<T>(docs: seq<Option<T>>)
    ensures Steady(Run(docs))
    decreases |docs|
  {
    if |docs| > 0 {
      RunSteady(docs[..|docs| - 1]);
      MongoAddSteady(Run(docs[..|docs| - 1]), docs[|docs| - 1]);
    }
  }

  /**
    After `finalize` the collection holds exactly the present documents of the stream, in order,
    received in full batches of fifty followed by at most one shorter, non-empty batch.
   */
  lemma RunThenFinalize<T>(docs: seq<Option<T>>)
    ensures Flatten(Finalize(Run(docs)).batches) == Present(docs)
    ensures Finalize(Run(docs)).buffer == []
    ensures var b := Finalize(Run(docs)).batches;
      forall i :: 0 <= i < |b| ==> 0 < |b[i]| <= BatchSize
    ensures var b := Finalize(Run(docs)).batches;
      forall i :: 0 <= i < |b| - 1 ==> |b[i]| == BatchSize
  {
    RunSteady(docs);
  }

  // ---------------------------------------------------------------- CSV handler

  /**
    A linked drug document; `None` stands for a key the document does not have. The `name`
    field is the document's `label` key, written to the column the header calls `name`.
   */
  datatype Doc = Doc(
    rxcui: Option<string>,
    tty: Option<string>,
    ndc: Option<string>,
    name: Option<string>,
    drugClasses: Option<seq<string>>,
    treatmentIntents: Option<seq<string>>,
    ingredients: Option<seq<string>>)

  /** The column names the header announces. */
  const HeaderColumns := ["rxcui", "tty", "ndc", "name", "va_classes", "treating", "ingredients"]

  /** The first line of the CSV file: the column names separated by commas. */
  const Header := Join(",", HeaderColumns) + "\n"

  /** `doc.get(key, default)` for a text field. */
  function Get(field: Option<string>, default: string): string
  {
    match field
    case None => default
    case Some(s) => s
  }

  /** `';'.join(doc.get(key) or [])`: a missing list is written as the empty string. */
  function JoinList(field: Option<seq<string>>): string
  {
    match field
    case None => ""
    case Some(xs) => Join(";", xs)
  }

  function Quote(s: string): string
  {
    "\"" + s + "\""
  }

  /** The quotes around a cell removed (a cell shorter than two characters is kept). */
  function Unquote(cell: string): string
  {
    if |cell| >= 2 then cell[1..|cell| - 1] else cell
  }

  lemma UnquoteQuote(s: string)
    ensures Unquote(Quote(s)) == s
  {
  }

  /** The seven cells of a row: the rxcui (`0` when missing) and ndc bare, the other five quoted. */
  function Cells(doc: Doc): (r: seq<string>)
    ensures |r| == |HeaderColumns|
  {
    [Get(doc.rxcui, "0"), Quote(Get(doc.tty, "")), Get(doc.ndc, ""), Quote(Get(doc.name, "")),
     Quote(JoinList(doc.drugClasses)), Quote(JoinList(doc.treatmentIntents)),
     Quote(JoinList(doc.ingredients))]
  }

  /** A field text that keeps its row readable: it holds no comma and no line break. */
  predicate Plain(s: string)
  {
    ',' !in s && '\n' !in s
  }

  predicate PlainList(field: Option<seq<string>>)
  {
    field.Some? ==> forall i :: 0 <= i < |field.value| ==> Plain(field.value[i])
  }

  /** The fields of a document that the CSV format can carry without ambiguity. */
  predicate PlainDoc(doc: Doc)
  {
    (doc.rxcui.Some? ==> Plain(doc.rxcui.value))
    && (doc.tty.Some? ==> Plain(doc.tty.value))
    && (doc.ndc.Some? ==> Plain(doc.ndc.value))
    && (doc.name.Some? ==> Plain(doc.name.value))
    && PlainList(doc.drugClasses) && PlainList(doc.treatmentIntents) && PlainList(doc.ingredients)
  }

  lemma JoinListPlain(field: Option<seq<string>>)
    requires PlainList(field)
    ensures Plain(JoinList(field))
  {
    if field.Some? {
      JoinAvoids(";", field.value, ',');
      JoinAvoids(";", field.value, '\n');
    }
  }

  /**
    `CSVHandler.addDocument`: one line holding the seven cells separated by commas, as the
    format string `{},"{}",{},"{}","{}","{}","{}"` lays them out, then a line break.
   */
  function CsvRow(doc: Doc): string
  {
    Join(",", Cells(doc)) + "\n"
  }

  /**
    Reading a row back: splitting it at its commas gives seven cells, the rxcui (or `0`), the
    bare ndc, and the quoted tty, label and lists, each of which unquotes to what was written.
   */
  lemma CsvRowReadsBack(doc: Doc)
    requires PlainDoc(doc)
    ensures var line := CsvRow(doc);
      |line| > 0 && line[|line| - 1] == '\n'
    ensures var line := CsvRow(doc);
      var cells := Split(line[..|line| - 1], ',');
      |cells| == |HeaderColumns|
      && cells[0] == Get(doc.rxcui, "0")
      && Unquote(cells[1]) == Get(doc.tty, "")
      && cells[2] == Get(doc.ndc, "")
      && Unquote(cells[3]) == Get(doc.name, "")
      && Unquote(cells[4]) == JoinList(doc.drugClasses)
      && Unquote(cells[5]) == JoinList(doc.treatmentIntents)
      && Unquote(cells[6]) == JoinList(doc.ingredients)
  {
    var line := CsvRow(doc);
    var cells := Split(line[..|line| - 1], ',');
    RowSplitsIntoCells(doc);
    assert cells == Cells(doc);
    UnquoteQuote(Get(doc.tty, ""));
    UnquoteQuote(Get(doc.name, ""));
    UnquoteQuote(JoinList(doc.drugClasses));
    UnquoteQuote(JoinList(doc.treatmentIntents));
    UnquoteQuote(JoinList(doc.ingredients));
  }

  /** Without its line break, a row splits at its commas into exactly its cells. */
  lemma RowSplitsIntoCells(doc: Doc)
    requires PlainDoc(doc)
    ensures var line := CsvRow(doc);
      |line| > 0 && line[|line| - 1] == '\n' && Split(line[..|line| - 1], ',') == Cells(doc)
  {
    var c := Cells(doc);
    var line := CsvRow(doc);
    assert line[..|line| - 1] == Join(",", c);
    CellsPlain(doc);
    SplitJoin(c, ',');
  }

  /** No cell of a document the format can carry holds a comma. */
  lemma CellsPlain(doc: Doc)
    requires PlainDoc(doc)
    ensures forall i | 0 <= i < |Cells(doc)| :: ',' !in Cells(doc)[i]
  {
    var c := Cells(doc);
    JoinListPlain(doc.drugClasses);
    JoinListPlain(doc.treatmentIntents);
    JoinListPlain(doc.ingredients);
    forall i | 0 <= i < |c|
      ensures ',' !in c[i]
    {
    }
  }

  /** A list field holding at least one item without `;` is recovered by splitting its cell. */
  lemma ListReadsBack(xs: seq<string>)
    requires |xs| >= 1
    requires forall i :: 0 <= i < |xs| ==> ';' !in xs[i]
    ensures Split(JoinList(Some(xs)), ';') == xs
  {
    SplitJoin(xs, ';');
  }

  /** The header names the same seven columns, in order, that every row fills. */
  lemma HeaderReadsBack()
    ensures Split(Header[..|Header| - 1], ',') == HeaderColumns
  {
    var h := HeaderColumns;
    assert Header[..|Header| - 1] == Join(",", h);
    forall i | 0 <= i < |h|
      ensures ',' !in h[i]
    {
    }
    SplitJoin(h, ',');
  }

  /** The whole CSV file: the header, then one row per document. */
  function CsvFile(docs: seq<Doc>): string
  {
    if |docs| == 0 then Header else CsvFile(docs[..|docs| - 1]) + CsvRow(docs[|docs| - 1])
  }

  lemma RowLineBreaks(doc: Doc)
    requires PlainDoc(doc)
    ensures CountChar(CsvRow(doc), '\n') == 1
  {
    var c := Cells(doc);
    JoinListPlain(doc.drugClasses);
    JoinListPlain(doc.treatmentIntents);
    JoinListPlain(doc.ingredients);
    forall i | 0 <= i < |c|
      ensures '\n' !in c[i]
    {
    }
    JoinAvoids(",", c, '\n');
    CountCharAbsent(Join(",", c), '\n');
    CountCharAppend(Join(",", c), "\n", '\n');
  }

  /** The file has exactly one line per document after the header line. */
  lemma {:induction false} CsvFileLines(docs: seq<Doc>)
    requires forall i :: 0 <= i < |docs| ==> PlainDoc(docs[i])
    ensures CountChar(CsvFile(docs), '\n') == |docs| + 1
    decreases |docs|
  {
    if |docs| == 0 {
      var h := Join(",", HeaderColumns);
      assert '\n' !in h by {
        JoinAvoids(",", HeaderColumns, '\n');
      }
      CountCharAbsent(h, '\n');
      CountCharAppend(h, "\n", '\n');
    } else {
      var init := docs[..|docs| - 1];
      CsvFileLines(init);
      RowLineBreaks(docs[|docs| - 1]);
      CountCharAppend(CsvFile(init), CsvRow(docs[|docs| - 1]), '\n');
    }
  }
}

=== FILE: rxnorm.dfy ===
/**
  The pure selection and formatting logic of `RxNormLookup` (`rxnorm.py`).

  Every query result is an input: the rows the `RXNCONSO` query returns for an RXCUI, the
  RXCUIs the `NDC` query returns, and the friendly names the `FRIENDLY_CLASS_NAMES` query
  returns for a VA code. Text is ASCII.
 */
module RxNorm {
  import opened Wrappers
  import opened Strings

  /** One `RXNCONSO` row as `lookup_code_meaning` selects it: `STR, TTY, RXAUI`. */
  datatype Row = Row(str: string, tty: string, rxaui: string)

  // ------------------------------------------------------------------ lookup_code_meaning

  /** The term types whose name is preferred, best first. */
  const Priority: seq<string> := ["BN", "IN", "PIN", "SBDC", "SCDC", "SBD", "SCD", "MIN"]

  /** The position of a term type in `Priority`; 8 for any other term type. */
  function Rank(tty: string): (r: nat)
    ensures r <= |Priority|
    ensures r < |Priority| <==> tty in Priority
    ensures r < |Priority| ==> Priority[r] == tty
  {
    if tty == "BN" then 0
    else if tty == "IN" then 1
    else if tty == "PIN" then 2
    else if tty == "SBDC" then 3
    else if tty == "SCDC" then 4
    else if tty == "SBD" then 5
    else if tty == "SCD" then 6
    else if tty == "MIN" then 7
    else 8
  }

  /** One row's display text: `STR [TTY]`, or the HTML form that also names the RXAUI. */
  function FormatRow(row: Row, noHtml: bool): (r: string)
    ensures noHtml ==> r == row.str + " [" + row.tty + "]"
    ensures !noHtml ==>
              r == "<span title=\"RXAUI: " + row.rxaui + "\">" + row.str
                   + " <span style=\"color:#888;\">[" + row.tty + "]</span></span>"
  {
    if noHtml then row.str + " [" + row.tty + "]"
    else "<span title=\"RXAUI: " + row.rxaui + "\">" + row.str
         + " <span style=\"color:#888;\">[" + row.tty + "]</span></span>"
  }

  /**
    The plain form reads back: split at `[`, it gives the name followed by a space, and the
    term type followed by `]`, when neither holds a `[`.
   */
  lemma FormatRowReadsBack(row: Row)
    requires '[' !in row.str && '[' !in row.tty
    ensures Split(FormatRow(row, true), '[') == [row.str + " ", row.tty + "]"]
  {
    var a, b := row.str + " ", row.tty + "]";
    assert FormatRow(row, true) == a + "[" + b;
    assert Join("[", [a, b]) == a + "[" + b by {
      assert Join("[", [a, b][1..]) == b;
    }
    SplitJoin([a, b], '[');
  }

  /** The separator between names: `; ` or an HTML line break. */
  function Separator(noHtml: bool): string
  {
    if noHtml then "; " else "<br/>\n"
  }

  /**
    Row `k` is the one the preferred-name loop picks: its term type has the best rank of any
    row, and no earlier row has that term type.
   */
  predicate IsPreferredPick(rows: seq<Row>, k: int)
  {
    && 0 <= k < |rows|
    && rows[k].tty in Priority
    && (forall j | 0 <= j < |rows| :: Rank(rows[k].tty) <= Rank(rows[j].tty))
    && (forall j | 0 <= j < k :: rows[j].tty != rows[k].tty)
  }

  /** No row carries a preferred term type. */
  predicate NoneRanked(rows: seq<Row>)
  {
    forall j | 0 <= j < |rows| :: rows[j].tty !in Priority
  }

  /** At most one row is the preferred pick. */
  lemma PreferredPickUnique(rows: seq<Row>, k1: int, k2: int)
    requires IsPreferredPick(rows, k1) && IsPreferredPick(rows, k2)
    ensures k1 == k2
  {
    assert Rank(rows[k1].tty) == Rank(rows[k2].tty);
    assert rows[k1].tty == Priority[Rank(rows[k1].tty)];
  }

  /**
    The nested loop of `lookup_code_meaning`: for each preferred term type in order, the first
    row with that term type; `None` when no row has any of them.
   */
  method PreferredPick(rows: seq<Row>) returns (r: Option<nat>)
    ensures r.Some? ==> IsPreferredPick(rows, r.value)
    ensures r.None? <==> NoneRanked(rows)
  {
    var p := 0;
    while p < |Priority|
      invariant 0 <= p <= |Priority|
      invariant forall j | 0 <= j < |rows| :: Rank(rows[j].tty) >= p
    {
      var i := 0;
      while i < |rows|
        invariant 0 <= i <= |rows|
        invariant forall j | 0 <= j < i :: rows[j].tty != Priority[p]
      {
        if rows[i].tty == Priority[p] {
          return Some(i);
        }
        i := i + 1;
      }
      p := p + 1;
    }
    return None;
  }

  /**
    `lookup_code_meaning`: `found` is what the query returns for `rxId`. A missing or empty id
    gives "" without querying; no rows gives `None`; otherwise the preferred row's name (the
    first row when none has a preferred term type), or every row's name in order.
   */
  method LookupCodeMeaning(rxId: Option<string>, found: seq<Row>, preferred: bool, noHtml: bool)
    returns (r: Option<string>)
    ensures rxId.None? || rxId.value == "" ==> r == Some("")
    ensures rxId.Some? && rxId.value != "" && found == [] ==> r.None?
    ensures rxId.Some? && rxId.value != "" && found != [] && preferred ==>
              r.Some? && exists k | 0 <= k < |found| ::
                && r.value == FormatRow(found[k], noHtml)
                && (IsPreferredPick(found, k) || (k == 0 && NoneRanked(found)))
    ensures rxId.Some? && rxId.value != "" && found != [] && !preferred ==>
              r == Some(Join(Separator(noHtml), seq(|found|, i requires 0 <= i < |found| => FormatRow(found[i], noHtml))))
  {
    if rxId.None? || |rxId.value| < 1 {
      return Some("");
    }
    if |found| == 0 {
      return None;
    }
    var names: seq<string>;
    if preferred {
      var pick := PreferredPick(found);
      var k := if pick.Some? then pick.value else 0;
      names := [FormatRow(found[k], noHtml)];
    } else {
      names := seq(|found|, i requires 0 <= i < |found| => FormatRow(found[i], noHtml));
    }
    return Some(Join(Separator(noHtml), names));
  }

  // ------------------------------------------------------------------ rxcui_for_ndc

  /** How often `x` occurs in `s`. */
  function Count(s: seq<string>, x: string): nat
  {
    multiset(s)[x]
  }

  /**
    `s[k]` is what `Counter(...).most_common()` puts first: no value is more frequent, and
    every value first seen before position `k` is strictly less frequent (ties go to the value
    seen first, because the sort is stable over first-seen order).
   */
  predicate MostCommonAt(s: seq<string>, k: int)
  {
    && 0 <= k < |s|
    && (forall j | 0 <= j < |s| :: Count(s, s[j]) <= Count(s, s[k]))
    && (forall j | 0 <= j < k :: Count(s, s[j]) < Count(s, s[k]))
  }

  /** The most common value is unique. */
  lemma MostCommonUnique(s: seq<string>, k1: int, k2: int)
    requires MostCommonAt(s, k1) && MostCommonAt(s, k2)
    ensures k1 == k2
  {
    assert Count(s, s[k2]) <= Count(s, s[k1]) && Count(s, s[k1]) <= Count(s, s[k2]);
    if k1 < k2 {
      assert false;
    } else if k2 < k1 {
      assert false;
    }
  }

  /**
    `rxcui_for_ndc`: `found` is the RXCUI column of the rows for `ndc`, in query order. The
    method tallies them as the source does and then picks the most common one.
   */
  method RxcuiForNdc(ndc: string, found: seq<string>) returns (r: Option<string>)
    requires ndc != ""
    ensures r.None? <==> found == []
    ensures r.Some? ==> exists k | 0 <= k < |found| :: MostCommonAt(found, k) && r.value == found[k]
    ensures r.Some? && (forall j | 0 <= j < |found| :: found[j] == found[0]) ==> r.value == found[0]
  {
    var counts := Tally(found);
    if |found| > 0 {
      assert found[0] in counts;
    }
    if |counts| == 0 {
      return None;
    }
    var best := 0;
    var i := 1;
    while i < |found|
      invariant 1 <= i <= |found|
      invariant 0 <= best < i
      invariant forall j | 0 <= j < i :: Count(found, found[j]) <= Count(found, found[best])
      invariant forall j | 0 <= j < best :: Count(found, found[j]) < Count(found, found[best])
    {
      if counts[found[i]] > counts[found[best]] {
        best := i;
      }
      i := i + 1;
    }
    assert MostCommonAt(found, best);
    if forall j | 0 <= j < |found| :: found[j] == found[0] {
      MostCommonFirst(found, best);
    }
    return Some(found[best]);
  }

  /** The `rxcuis[res[0]] = rxcuis.get(res[0], 0) + 1` loop: each value mapped to its count. */
  method Tally(found: seq<string>) returns (counts: map<string, nat>)
    ensures forall x :: x in counts <==> x in found
    ensures forall x | x in counts :: counts[x] == Count(found, x)
  {
    counts := map[];
    var i := 0;
    while i < |found|
      invariant 0 <= i <= |found|
      invariant forall x :: x in counts <==> x in found[..i]
      invariant forall x | x in counts :: counts[x] == Count(found[..i], x)
    {
      assert found[..i + 1] == found[..i] + [found[i]];
      var c := if found[i] in counts then counts[found[i]] else 0;
      counts := counts[found[i] := c + 1];
      i := i + 1;
    }
    assert found[..i] == found;
  }

  lemma MostCommonFirst(s: seq<string>, k: int)
    requires MostCommonAt(s, k)
    requires forall j | 0 <= j < |s| :: s[j] == s[0]
    ensures s[k] == s[0]
  {
  }

  // ------------------------------------------------------------------ VA drug classes

  /**
    The code inside a VA class name `[CODE] NAME`: the text between the leading `[` and the
    first `]`. A name that does not start with `[` or has no `]` has none; an empty name makes
    the source index past its end, which is the failure.
   */
  function VaCode(vaName: string): (r: Result<Option<string>, string>)
    ensures r.Failure? <==> vaName == ""
    ensures r.Success? && r.value.Some? ==>
              vaName[0] == '[' && ']' !in r.value.value && |r.value.value| + 2 <= |vaName|
              && vaName[..|r.value.value| + 2] == "[" + r.value.value + "]"
    ensures r.Success? && r.value.None? ==> vaName[0] != '[' || ']' !in vaName
  {
    if vaName == "" then Failure("IndexError")
    else if vaName[0] != '[' || ']' !in vaName then Success(None)
    else
      var e := IndexOf(vaName, ']');
      assert e >= 1;
      assert vaName[..e + 1] == "[" + vaName[1..e] + "]";
      Success(Some(vaName[1..e]))
  }

  /** Writing a code in brackets in front of any text gives the code back. */
  lemma VaCodeRoundTrip(code: string, rest: string)
    requires ']' !in code
    ensures VaCode("[" + code + "]" + rest) == Success(Some(code))
  {
    var s := "[" + code + "]" + rest;
    assert s[1..] == code + "]" + rest;
    IndexOfJoined(code, ']', rest);
    assert s[1..|code| + 1] == code;
  }

  /**
    `_friendly_va_drug_classes`: the friendly names stored for the name's VA code (`lookup`
    answers the query), or `None` when the name has no code or no names are stored.
   */
  function FriendlyVaDrugClasses(vaName: Option<string>, lookup: string -> seq<string>)
    : (r: Result<Option<seq<string>>, string>)
    ensures vaName.None? ==> r == Success(None)
    ensures vaName.Some? ==> (r.Failure? <==> vaName.value == "")
    ensures r.Success? && r.value.Some? ==>
              vaName.Some? && VaCode(vaName.value).Success? && VaCode(vaName.value).value.Some?
              && r.value.value == lookup(VaCode(vaName.value).value.value) && r.value.value != []
    ensures vaName.Some? && VaCode(vaName.value).Success? && VaCode(vaName.value).value.Some?
            && lookup(VaCode(vaName.value).value.value) != [] ==>
              r == Success(Some(lookup(VaCode(vaName.value).value.value)))
  {
    if vaName.None? then Success(None)
    else
      match VaCode(vaName.value)
      case Failure(e) => Failure(e)
      case Success(code) =>
        if code.None? then Success(None)
        else
          var names := lookup(code.value);
          if |names| > 0 then Success(Some(names)) else Success(None)
  }

  /** Everything after the first `]`, whitespace-stripped; the text unchanged without a `]`. */
  function DropIdentifier(s: string): (r: string)
    ensures ']' !in s ==> r == s
    ensures ']' in s ==> Stripped(s[IndexOf(s, ']') + 1..], r)
  {
    if ']' in s then Strip(s[IndexOf(s, ']') + 1..]) else s
  }

  /** The text before the first `c`, when that occurrence is past index 2. */
  function CutAfterThree(s: string, c: char): (r: string)
    ensures r <= s
    ensures c in r ==> IndexOf(r, c) <= 2 && IndexOf(r, c) == IndexOf(s, c)
    ensures c !in s || IndexOf(s, c) <= 2 ==> r == s
    ensures c in s && IndexOf(s, c) > 2 ==> c !in r && |r| < |s| && s[|r|] == c
  {
    if c in s && IndexOf(s, c) > 2 then s[..IndexOf(s, c)] else s
  }

  /** A word character starting a word: at the start of the text or after a space. */
  predicate WordStart(s: string, i: int)
    requires 0 <= i < |s|
  {
    IsWordChar(s[i]) && (i == 0 || s[i - 1] == ' ')
  }

  /** `re.sub(r'(^| )(\w)', ...)` uppercasing each word start. */
  function Capitalize(s: string): (r: string)
    ensures |r| == |s|
    ensures forall i | 0 <= i < |s| :: r[i] == if WordStart(s, i) then ToUpper(s[i]) else s[i]
  {
    seq(|s|, i requires 0 <= i < |s| => if WordStart(s, i) then ToUpper(s[i]) else s[i])
  }

  /** `friendly_class_format`. */
  function FriendlyClassFormat(vaName: Option<string>): (r: Option<string>)
    ensures r.None? <==> vaName.None? || vaName.value == ""
    ensures r.Some? ==> |r.value| <= |vaName.value|
    ensures r.Some? ==>
              Lower(r.value) == Lower(CutAfterThree(CutAfterThree(DropIdentifier(vaName.value), ','), '/'))
    ensures r.Some? ==> forall i | 0 <= i < |r.value| ::
              r.value[i] == if WordStart(Lower(r.value), i) then ToUpper(ToLower(r.value[i])) else ToLower(r.value[i])
  {
    if vaName.None? || |vaName.value| == 0 then None
    else
      var t := CutAfterThree(CutAfterThree(DropIdentifier(vaName.value), ','), '/');
      var r := Capitalize(Lower(t));
      LemmaCaseFolded(t, r);
      Some(r)
  }

  /** Lower-casing then capitalising is determined by the lower-cased text itself. */
  lemma LemmaCaseFolded(t: string, r: string)
    requires r == Capitalize(Lower(t))
    ensures forall i | 0 <= i < |r| ::
              r[i] == if WordStart(Lower(r), i) then ToUpper(ToLower(r[i])) else ToLower(r[i])
  {
    var l := Lower(t);
    forall i | 0 <= i < |r|
      ensures Lower(r)[i] == l[i]
    {
    }
    assert Lower(r) == l;
  }

  /**
    A formatted class name is a fixed point: formatting it again changes nothing, provided it
    is not empty and holds no `]`.
   */
  lemma FriendlyClassFormatIdempotent(vaName: string)
    requires vaName != ""
    ensures var r := FriendlyClassFormat(Some(vaName)).value;
            r != "" && ']' !in r ==> FriendlyClassFormat(Some(r)) == Some(r)
  {
    var t0 := DropIdentifier(vaName);
    var t1 := CutAfterThree(t0, ',');
    var t := CutAfterThree(t1, '/');
    var r := Capitalize(Lower(t));
    assert FriendlyClassFormat(Some(vaName)) == Some(r);
    if r == "" || ']' in r {
      return;
    }
    // The same cuts on `r` change nothing: `r` has each separator where `t` had it.
    forall i | 0 <= i < |r|
      ensures (r[i] == ',' <==> t[i] == ',') && (r[i] == '/' <==> t[i] == '/')
    {
    }
    assert DropIdentifier(r) == r;
    LemmaSameCut(t, r, ',');
    LemmaSameCut(t, r, '/');
    LemmaCutKeeps(t0, t1, t, ',', '/');
    assert CutAfterThree(r, ',') == r;
    assert CutAfterThree(r, '/') == r;
    var l := Lower(r);
    forall i | 0 <= i < |r|
      ensures l[i] == Lower(t)[i]
    {
    }
    assert l == Lower(t);
  }

  /** Two strings with the separator at the same places cut alike. */
  lemma LemmaSameCut(t: string, r: string, c: char)
    requires |t| == |r|
    requires forall i | 0 <= i < |r| :: r[i] == c <==> t[i] == c
    ensures c in t <==> c in r
    ensures c in t ==> IndexOf(t, c) == IndexOf(r, c)
  {
    if c in r {
      var m := IndexOf(r, c);
      assert t[m] == c;
    }
    if c in t {
      var k := IndexOf(t, c);
      assert r[k] == c;
      var m := IndexOf(r, c);
      assert t[m] == c;
      assert c !in t[..k];
      assert c !in r[..m];
    }
  }

  /** After both cuts, each separator that remains sits at index 2 or before. */
  lemma LemmaCutKeeps(t0: string, t1: string, t: string, a: char, b: char)
    requires t1 == CutAfterThree(t0, a) && t == CutAfterThree(t1, b)
    ensures a in t ==> IndexOf(t, a) <= 2
    ensures b in t ==> IndexOf(t, b) <= 2
  {
    if a in t {
      assert t <= t1;
      var k := IndexOf(t, a);
      assert t1[k] == a;
      assert a in t1;
      var m := IndexOf(t1, a);
      assert m <= 2;
      if m < k {
        assert false;
      }
    }
  }
}

=== FILE: rxnorm_link.dfy ===
/**
  The relation-walking helpers of the RxNorm link scripts (`rxnorm_link.py`, and the older
  `rxnorm-link.py`, whose helpers have the same bodies over a module-global handle).

  Every `doQ` query is an oracle of the `Store`: the answer is a sequence of values in the
  order the database returns them, and nothing is assumed about that order.
 */
module RxNormLink {
  import opened Wrappers
  import opened Strings

  /** The queries the helpers issue, as functions of their parameters. */
  datatype Store = Store(
    /** `SELECT rxcui1 FROM rxnrel WHERE rxcui2 = ? AND rela = ?` */
    related: (string, string) -> seq<string>,
    /** `SELECT rxcui FROM rxnconso WHERE rxcui = ? AND sab = 'RXNORM' AND tty = 'SCDC'` */
    scdc: string -> seq<string>,
    /** `SELECT rxaui FROM rxnconso WHERE rxcui = ? AND tty = 'FN' AND sab = 'NDFRT'` */
    fnAtoms: string -> seq<string>,
    /** `SELECT rxaui1 FROM rxnrel WHERE rxaui2 = ? AND rela = ?` */
    atomRelated: (string, string) -> seq<string>,
    /** `SELECT str FROM rxnconso WHERE rxaui = ? AND tty = 'FN' AND sab = 'NDFRT'` */
    atomNames: string -> seq<string>,
    /** `lookup_tty`: the term types of an RXCUI. */
    ttys: string -> set<string>)

  /** The items of a tail are the items past the head. */
  lemma LemmaTail(xs: seq<string>)
    requires xs != []
    ensures forall i | 0 <= i < |xs| - 1 :: xs[1..][i] == xs[i + 1]
  {
  }

  /** The union of `f(x)` over the items of `xs`: the loops that `update` a result set. */
  function UnionOver(xs: seq<string>, f: string -> set<string>): (r: set<string>)
    ensures forall y :: y in r <==> exists i | 0 <= i < |xs| :: y in f(xs[i])
  {
    if xs == [] then {}
    else
      var rest := UnionOver(xs[1..], f);
      LemmaTail(xs);
      f(xs[0]) + rest
  }

  /** The elements of the concatenation of `f(x)` over the items of `xs`, in order. */
  function ConcatOver(xs: seq<string>, f: string -> seq<string>): (r: seq<string>)
    ensures forall y :: y in r <==> exists i | 0 <= i < |xs| :: y in f(xs[i])
  {
    if xs == [] then []
    else
      var rest := ConcatOver(xs[1..], f);
      LemmaTail(xs);
      f(xs[0]) + rest
  }

  // ------------------------------------------------------------------ brand, components

  /** `toBrandAndGeneric`: every RXCUI that is a `tradename_of` one of the inputs. */
  function BrandAndGeneric(store: Store, rxcuis: seq<string>, tty: string): (r: set<string>)
    ensures forall y :: y in r <==> exists i | 0 <= i < |rxcuis| :: y in store.related(rxcuis[i], "tradename_of")
  {
    UnionOver(rxcuis, x => set y | y in store.related(x, "tradename_of"))
  }

  /** The clinical drug components (SCDC) an RXCUI `consists_of`. */
  function ComponentsOf(store: Store, rxcui: string): (r: set<string>)
    ensures forall y :: y in r <==> exists j | 0 <= j < |store.related(rxcui, "consists_of")| ::
              y in store.scdc(store.related(rxcui, "consists_of")[j])
  {
    UnionOver(store.related(rxcui, "consists_of"), c => set y | y in store.scdc(c))
  }

  /** `toComponents`: only branded and clinical drugs (SBD, SCD) have components. */
  function Components(store: Store, rxcuis: seq<string>, tty: string): (r: set<string>)
    ensures tty != "SBD" && tty != "SCD" ==> r == {}
    ensures tty == "SBD" || tty == "SCD" ==>
              forall y :: y in r <==> exists i | 0 <= i < |rxcuis| :: y in ComponentsOf(store, rxcuis[i])
  {
    if tty != "SBD" && tty != "SCD" then {}
    else UnionOver(rxcuis, x => ComponentsOf(store, x))
  }

  // ------------------------------------------------------------------ treatment intents, mechanisms

  const DiseaseSuffix := " [Disease/Finding]"
  const MoASuffix := " [MoA]"

  /**
    For one NDFRT atom: the names of the FIRST atom related to it by `rela`, each with
    `suffix` deleted; nothing when no atom is related.
   */
  function FirstRelatedNames(store: Store, atom: string, rela: string, suffix: string): (r: seq<string>)
    requires |suffix| > 0
    ensures store.atomRelated(atom, rela) == [] ==> r == []
    ensures store.atomRelated(atom, rela) != [] ==>
              var names := store.atomNames(store.atomRelated(atom, rela)[0]);
              |r| == |names| && forall k | 0 <= k < |r| :: r[k] == RemoveAll(names[k], suffix)
  {
    var a1 := store.atomRelated(atom, rela);
    if |a1| > 0 then
      var names := store.atomNames(a1[0]);
      seq(|names|, k requires 0 <= k < |names| => RemoveAll(names[k], suffix))
    else []
  }

  /** A name ending in the suffix, with no other occurrence of it, loses exactly the suffix. */
  lemma StripsSuffix(name: string, suffix: string)
    requires suffix == DiseaseSuffix || suffix == MoASuffix
    requires !Contains(name, suffix)
    ensures RemoveAll(name + suffix, suffix) == name
  {
    assert suffix[0] == ' ';
    assert forall i | 1 <= i < |suffix| :: suffix[i] != ' ';
    RemoveAllSuffix(name, suffix);
  }

  /** `toTreatmentIntents_helper`: the diseases an ingredient `may_treat`, in query order. */
  function TreatmentIntentsHelper(store: Store, rxcui: string, tty: string): (r: seq<string>)
    requires tty == "IN"
    ensures forall y :: y in r <==> exists i | 0 <= i < |store.fnAtoms(rxcui)| ::
              y in FirstRelatedNames(store, store.fnAtoms(rxcui)[i], "may_treat", DiseaseSuffix)
  {
    ConcatOver(store.fnAtoms(rxcui), a => FirstRelatedNames(store, a, "may_treat", DiseaseSuffix))
  }

  /** `toTreatmentIntents`: the union over the inputs; every input must be an ingredient. */
  function TreatmentIntents(store: Store, rxcuis: seq<string>, tty: string): (r: set<string>)
    requires |rxcuis| > 0 ==> tty == "IN"
    ensures forall y :: y in r <==> exists i | 0 <= i < |rxcuis| :: y in TreatmentIntentsHelper(store, rxcuis[i], tty)
  {
    if rxcuis == [] then {}
    else UnionOver(rxcuis, x => set y | y in TreatmentIntentsHelper(store, x, tty))
  }

  /** `toMechanism_helper`: the mechanisms of action of an ingredient. */
  function MechanismHelper(store: Store, rxcui: string, tty: string): (r: set<string>)
    requires tty == "IN"
    ensures forall y :: y in r <==> exists i | 0 <= i < |store.fnAtoms(rxcui)| ::
              y in FirstRelatedNames(store, store.fnAtoms(rxcui)[i], "has_mechanism_of_action", MoASuffix)
  {
    UnionOver(store.fnAtoms(rxcui), a => set y | y in FirstRelatedNames(store, a, "has_mechanism_of_action", MoASuffix))
  }

  /** `toMechanism`: the union over the inputs; every input must be an ingredient. */
  function Mechanism(store: Store, rxcuis: seq<string>, tty: string): (r: set<string>)
    requires |rxcuis| > 0 ==> tty == "IN"
    ensures forall y :: y in r <==> exists i | 0 <= i < |rxcuis| :: y in MechanismHelper(store, rxcuis[i], tty)
  {
    if rxcuis == [] then {}
    else UnionOver(rxcuis, x => MechanismHelper(store, x, tty))
  }

  // ------------------------------------------------------------------ ingredients

  /** The term types whose ingredients are one relation away, and that relation. */
  function DirectRela(tty: string): Option<string>
  {
    if tty == "MIN" then Some("has_part")
    else if tty == "PIN" then Some("form_of")
    else if tty == "BN" then Some("tradename_of")
    else if tty == "SCDC" || tty == "SCDF" || tty == "SCDG" then Some("has_ingredient")
    else None
  }

  /** The term types reached through one relation and a term type closer to the ingredient. */
  function IndirectRela(tty: string): Option<(string, string)>
  {
    if tty == "BPCK" || tty == "GPCK" then Some(("contains", "SCD"))
    else if tty == "SBD" then Some(("tradename_of", "SCD"))
    else if tty == "SBDC" then Some(("tradename_of", "SCDC"))
    else if tty == "SBDF" then Some(("tradename_of", "SCDF"))
    else if tty == "SBDG" then Some(("tradename_of", "SCDG"))
    else if tty == "SCD" then Some(("consists_of", "SCDC"))
    else None
  }

  /** How many indirect steps a term type is from a direct one; every indirect step lowers it. */
  function Depth(tty: string): nat
  {
    if tty == "BPCK" || tty == "GPCK" || tty == "SBD" then 2
    else if tty == "SBDC" || tty == "SBDF" || tty == "SBDG" || tty == "SCD" then 1
    else 0
  }

  /**
    `toIngredients_helper`: nothing for an ingredient (IN); one lookup for a direct term type;
    for an indirect one, the ingredients of every related RXCUI at the next term type; nothing
    for any other term type. The recursion ends because `Depth` drops at every indirect step.
   */
  function IngredientsHelper(store: Store, rxcui: string, tty: string): (r: set<string>)
    ensures tty == "IN" ==> r == {}
    ensures DirectRela(tty).Some? ==> r == set y | y in store.related(rxcui, DirectRela(tty).value)
    ensures DirectRela(tty).None? && IndirectRela(tty).None? ==> r == {}
    decreases Depth(tty), 0, 0
  {
    if tty == "IN" then {}
    else if DirectRela(tty).Some? then set y | y in store.related(rxcui, DirectRela(tty).value)
    else if IndirectRela(tty).Some? then
      var (rela, next) := IndirectRela(tty).value;
      Ingredients(store, store.related(rxcui, rela), next)
    else {}
  }

  /** `toIngredients`: the union of the helper over the inputs. */
  function Ingredients(store: Store, rxcuis: seq<string>, tty: string): (r: set<string>)
    ensures forall y :: y in r <==> exists i | 0 <= i < |rxcuis| :: y in IngredientsHelper(store, rxcuis[i], tty)
    decreases Depth(tty), 1, |rxcuis|
  {
    if rxcuis == [] then {}
    else
      var rest := Ingredients(store, rxcuis[1..], tty);
      LemmaTail(rxcuis);
      IngredientsHelper(store, rxcuis[0], tty) + rest
  }

  /**
    The relation path from a term type to its ingredients, with the two tables unfolded:
    e.g. SBD goes `tradename_of`, `consists_of`, `has_ingredient`. None for IN and for term
    types outside both tables.
   */
  function Path(tty: string): (p: Option<seq<string>>)
    ensures p.Some? ==> |p.value| == Depth(tty) + 1
    decreases Depth(tty)
  {
    if tty == "IN" then None
    else if DirectRela(tty).Some? then Some([DirectRela(tty).value])
    else if IndirectRela(tty).Some? then
      var (rela, next) := IndirectRela(tty).value;
      var rest := Path(next);
      if rest.Some? then Some([rela] + rest.value) else None
    else None
  }

  /** `c` walks from `c[0]` along `path`: each step follows that step's relation. */
  ghost predicate IsChain(store: Store, c: seq<string>, path: seq<string>)
  {
    && |c| == |path| + 1
    && forall i | 0 <= i < |path| :: c[i + 1] in store.related(c[i], path[i])
  }

  /** Everything reachable from `x` along `path`. */
  function Reach(store: Store, x: string, path: seq<string>): set<string>
    decreases |path|, 0
  {
    if path == [] then {x} else ReachAll(store, store.related(x, path[0]), path[1..])
  }

  function ReachAll(store: Store, xs: seq<string>, path: seq<string>): (r: set<string>)
    ensures forall y :: y in r <==> exists i | 0 <= i < |xs| :: y in Reach(store, xs[i], path)
    decreases |path|, 1, |xs|
  {
    if xs == [] then {}
    else
      var rest := ReachAll(store, xs[1..], path);
      LemmaTail(xs);
      Reach(store, xs[0], path) + rest
  }

  /** The helper is the walk along the term type's unfolded path. */
  lemma {:induction false} IngredientsFollowPath(store: Store, rxcui: string, tty: string)
    ensures Path(tty).None? ==> IngredientsHelper(store, rxcui, tty) == {}
    ensures Path(tty).Some? ==> IngredientsHelper(store, rxcui, tty) == Reach(store, rxcui, Path(tty).value)
    decreases Depth(tty)
  {
    if tty == "IN" {
    } else if DirectRela(tty).Some? {
      var p := Path(tty).value;
      assert p[1..] == [];
      var rel := store.related(rxcui, p[0]);
      forall y
        ensures y in Reach(store, rxcui, p) <==> y in rel
      {
        if y in rel {
          var i :| 0 <= i < |rel| && rel[i] == y;
          assert y in Reach(store, rel[i], []);
        }
      }
    } else if IndirectRela(tty).Some? {
      var (rela, next) := IndirectRela(tty).value;
      var rel := store.related(rxcui, rela);
      forall i | 0 <= i < |rel|
        ensures Path(next).None? ==> IngredientsHelper(store, rel[i], next) == {}
        ensures Path(next).Some? ==> IngredientsHelper(store, rel[i], next) == Reach(store, rel[i], Path(next).value)
      {
        IngredientsFollowPath(store, rel[i], next);
      }
      if Path(next).Some? {
        var p := Path(tty).value;
        assert p[0] == rela && p[1..] == Path(next).value;
      }
    }
  }

  /** Whatever is reached along a path ends a chain along it. */
  lemma {:induction false} ReachHasChain(store: Store, x: string, path: seq<string>, y: string)
    requires y in Reach(store, x, path)
    ensures exists c :: IsChain(store, c, path) && c[0] == x && c[|c| - 1] == y
    decreases |path|
  {
    if path == [] {
      assert IsChain(store, [x], path);
    } else {
      var rel := store.related(x, path[0]);
      var i :| 0 <= i < |rel| && y in Reach(store, rel[i], path[1..]);
      ReachHasChain(store, rel[i], path[1..], y);
      var c :| IsChain(store, c, path[1..]) && c[0] == rel[i] && c[|c| - 1] == y;
      var c' := [x] + c;
      forall k | 0 <= k < |path|
        ensures c'[k + 1] in store.related(c'[k], path[k])
      {
        if k > 0 {
          assert c'[k] == c[k - 1] && c'[k + 1] == c[k];
        }
      }
      assert IsChain(store, c', path);
    }
  }

  /** The end of every chain along a path is reached along it. */
  lemma {:induction false} ChainIsReached(store: Store, c: seq<string>, path: seq<string>)
    requires IsChain(store, c, path)
    ensures c[|c| - 1] in Reach(store, c[0], path)
    decreases |path|
  {
    if path != [] {
      var c' := c[1..];
      forall k | 0 <= k < |path[1..]|
        ensures c'[k + 1] in store.related(c'[k], path[1..][k])
      {
        assert c[k + 1 + 1] in store.related(c[k + 1], path[k + 1]);
      }
      assert IsChain(store, c', path[1..]);
      ChainIsReached(store, c', path[1..]);
      var rel := store.related(c[0], path[0]);
      var i :| 0 <= i < |rel| && rel[i] == c[1];
      assert c'[|c'| - 1] == c[|c| - 1];
    }
  }

  /**
    The ingredients of an RXCUI of a mapped term type are exactly the ends of the relation
    chains that start at it and follow the term type's unfolded path.
   */
  lemma IngredientsAreChainEnds(store: Store, rxcui: string, tty: string, y: string)
    requires Path(tty).Some?
    ensures y in IngredientsHelper(store, rxcui, tty) <==>
            exists c :: IsChain(store, c, Path(tty).value) && c[0] == rxcui && c[|c| - 1] == y
  {
    IngredientsFollowPath(store, rxcui, tty);
    if y in Reach(store, rxcui, Path(tty).value) {
      ReachHasChain(store, rxcui, Path(tty).value, y);
    }
    if exists c :: IsChain(store, c, Path(tty).value) && c[0] == rxcui && c[|c| - 1] == y {
      var c :| IsChain(store, c, Path(tty).value) && c[0] == rxcui && c[|c| - 1] == y;
      ChainIsReached(store, c, Path(tty).value);
    }
  }

  // ------------------------------------------------------------------ VA classes

  /** The relations `traverseVA` follows from each term type to spread a VA class. */
  const VaMapping: map<string, seq<string>> := map[
    "CD" := ["has_tradename", "contained_in", "consists_of", "quantified_form"],
    "GPCK" := ["has_tradename"],
    "SBD" := ["isa", "has_ingredient", "tradename_of", "consists_of"],
    "SBDF" := ["tradename_of", "has_ingredient"],
    "SBDG" := ["has_ingredient", "tradename_of"],
    "SCD" := ["isa", "has_quantified_form", "contained_in", "has_tradename"],
    "SCDC" := ["constitutes", "has_tradename"],
    "SCDF" := ["inverse_isa"],
    "SCDG" := ["tradename_of"]
  ]

  /** The relations to follow from an RXCUI with term types `ttys`. */
  function RelasFor(ttys: set<string>, mapping: map<string, seq<string>>): (r: set<string>)
    ensures forall rela :: rela in r <==> exists t | t in ttys && t in mapping :: rela in mapping[t]
  {
    set t, rela | t in ttys && t in mapping && rela in mapping[t] :: rela
  }

  /**
    Under the mapping of `traverseVA`, a clinical drug form (SCDF) is walked only along
    `inverse_isa`, a branded drug group (SBDG) along `has_ingredient` and `tradename_of`, and
    an ingredient (IN), which the mapping leaves out, along nothing.
   */
  lemma VaMappingRelas()
    ensures RelasFor({"SCDF"}, VaMapping) == {"inverse_isa"}
    ensures RelasFor({"SBDG"}, VaMapping) == {"has_ingredient", "tradename_of"}
    ensures RelasFor({"IN"}, VaMapping) == {}
    ensures RelasFor({"SCDF", "SBDG"}, VaMapping) == {"inverse_isa", "has_ingredient", "tradename_of"}
  {
    assert "SCDF" in VaMapping && "SBDG" in VaMapping && "IN" !in VaMapping;
    assert "inverse_isa" in VaMapping["SCDF"];
    assert "has_ingredient" in VaMapping["SBDG"] && "tradename_of" in VaMapping["SBDG"];
  }

  /** The distinct RXCUIs related to `rxcui` by any of `relas` (`rela IN (...)`). */
  function RelatedByAny(store: Store, rxcui: string, relas: set<string>): (r: set<string>)
    ensures forall y :: y in r <==> exists rela | rela in relas :: y in store.related(rxcui, rela)
  {
    set rela, y | rela in relas && y in store.related(rxcui, rela) :: y
  }

  /** A `va_cache` row: the `|`-joined classes and the level they were found at. */
  datatype CacheEntry = CacheEntry(va: string, level: int)

  type Cache = map<string, CacheEntry>

  /** `storeVAs`: insert or replace the entry of `rxcui`. */
  function StoreVAs(cache: Cache, rxcui: string, vas: seq<string>, level: int): (r: Cache)
    requires rxcui != "" && |vas| > 0
    ensures r.Keys == cache.Keys + {rxcui}
    ensures r[rxcui] == CacheEntry(Join("|", vas), level)
    ensures forall k | k in cache && k != rxcui :: r[k] == cache[k]
  {
    cache[rxcui := CacheEntry(Join("|", vas), level)]
  }

  /** `toDrugClasses`: the stored classes, or none when the RXCUI has no entry. */
  function ToDrugClasses(cache: Cache, rxcui: string): (r: seq<string>)
    ensures rxcui !in cache ==> r == []
    ensures rxcui in cache ==> |r| >= 1 && Join("|", r) == cache[rxcui].va
    ensures forall i | 0 <= i < |r| :: '|' !in r[i]
  {
    if rxcui in cache then Split(cache[rxcui].va, '|') else []
  }

  /** Storing classes and reading them back gives them back when none contains `|`. */
  lemma StoreThenRead(cache: Cache, rxcui: string, vas: seq<string>, level: int)
    requires rxcui != "" && |vas| > 0
    requires forall i | 0 <= i < |vas| :: '|' !in vas[i]
    ensures ToDrugClasses(StoreVAs(cache, rxcui, vas, level), rxcui) == vas
  {
    SplitJoin(vas, '|');
  }

  /** Store `vas` at `level` on every RXCUI of `targets`, one after the other. */
  method StoreAll(cache: Cache, targets: set<string>, vas: seq<string>, level: int) returns (r: Cache)
    requires "" !in targets && |vas| > 0
    ensures r.Keys == cache.Keys + targets
    ensures forall y | y in targets :: r[y] == CacheEntry(Join("|", vas), level)
    ensures forall k | k in cache && k !in targets :: r[k] == cache[k]
  {
    var e := CacheEntry(Join("|", vas), level);
    var todo, done := targets, {};
    r := cache;
    while todo != {}
      invariant done + todo == targets && done !! todo
      invariant r.Keys == cache.Keys + done
      invariant forall y | y in done :: r[y] == e
      invariant forall k | k in cache && k !in done :: r[k] == cache[k]
      decreases todo
    {
      var y :| y in todo;
      r := r[y := e];
      todo, done := todo - {y}, done + {y};
    }
  }

  /**
    `walkVAs`: store the classes `vas`, one level deeper, on every RXCUI related to `rxcui`
    by a relation its term types map to. Entries of other RXCUIs are left as they were.
   */
  method WalkVAs(store: Store, cache: Cache, rxcui: string, vas: seq<string>,
                 mapping: map<string, seq<string>>, atLevel: int) returns (r: Cache)
    requires rxcui != "" && |vas| > 0
    requires "" !in RelatedByAny(store, rxcui, RelasFor(store.ttys(rxcui), mapping))
    ensures var targets := RelatedByAny(store, rxcui, RelasFor(store.ttys(rxcui), mapping));
            && r.Keys == cache.Keys + targets
            && (forall y | y in targets :: r[y] == CacheEntry(Join("|", vas), atLevel + 1))
            && (forall k | k in cache && k !in targets :: r[k] == cache[k])
  {
    var relas := RelasFor(store.ttys(rxcui), mapping);
    var targets := RelatedByAny(store, rxcui, relas);
    r := StoreAll(cache, targets, vas, atLevel + 1);
  }
}

=== FILE: sqlite.dfy ===
/**
  The connection state of the `SQLite` wrapper and the statement text of `CSVImporter`
  (`sqlite.py`).

  No real database is opened: `connections` counts the connections the wrapper has made, and
  the cursor remembers which one it belongs to, so lazy and repeated connects can be told
  apart. Query results (`lastrowid`, the `COUNT(*)` row) are inputs.
 */
module Sqlite {
  import opened Wrappers
  import opened Strings

  /** A cursor on the `session`-th connection the wrapper has made. */
  datatype Cursor = Cursor(session: nat)

  /** An `SQLite` object: its database path and its cursor, `None` while disconnected. */
  datatype SQLite = SQLite(database: string, cursor: Option<Cursor>, connections: nat)

  /** `SQLite(database)`: a missing database is refused; the object starts disconnected. */
  function New(database: Option<string>): (r: Result<SQLite, string>)
    ensures r.Failure? <==> database.None?
    ensures r.Success? ==> r.value.database == database.value && r.value.cursor.None? && r.value.connections == 0
  {
    if database.None? then Failure("No database provided") else Success(SQLite(database.value, None, 0))
  }

  /** `connect`: a no-op when connected; otherwise opens a new connection. */
  function Connect(s: SQLite): (r: SQLite)
    ensures r.cursor.Some? && r.database == s.database
    ensures s.cursor.Some? ==> r == s
    ensures s.cursor.None? ==> r.connections == s.connections + 1 && r.cursor == Some(Cursor(s.connections))
  {
    if s.cursor.Some? then s else SQLite(s.database, Some(Cursor(s.connections)), s.connections + 1)
  }

  /** `close`: a no-op when disconnected; otherwise drops handle and cursor. */
  function Close(s: SQLite): (r: SQLite)
    ensures r.cursor.None? && r.database == s.database && r.connections == s.connections
    ensures s.cursor.None? ==> r == s
  {
    if s.cursor.None? then s else s.(cursor := None)
  }

  lemma ConnectCloseIdempotent(s: SQLite)
    ensures Connect(Connect(s)) == Connect(s)
    ensures Close(Close(s)) == Close(s)
    ensures Close(Connect(s)).connections == s.connections + (if s.cursor.None? then 1 else 0)
  {
  }

  /** `execute`: refuse a missing or empty statement; otherwise connect if needed. */
  function Execute(s: SQLite, sql: Option<string>): (r: Result<SQLite, string>)
    ensures r.Failure? <==> sql.None? || sql.value == ""
    ensures r.Failure? ==> r.error == "No SQL to execute"
    ensures r.Success? ==> r.value.cursor.Some? && r.value.database == s.database
    ensures r.Success? ==> r.value.connections == s.connections + (if s.cursor.None? then 1 else 0)
  {
    if sql.None? || |sql.value| == 0 then Failure("No SQL to execute")
    else Success(Connect(s))
  }

  /** Any number of statements opens at most one connection. */
  lemma {:induction false} ExecuteConnectsOnce(s: SQLite, sqls: seq<string>)
    requires forall i | 0 <= i < |sqls| :: sqls[i] != ""
    ensures ExecuteAll(s, sqls).connections <= s.connections + 1
    ensures |sqls| > 0 ==> ExecuteAll(s, sqls).cursor.Some?
    ensures s.cursor.Some? ==> ExecuteAll(s, sqls) == s
    decreases |sqls|
  {
    if |sqls| > 0 {
      var s' := Execute(s, Some(sqls[0])).value;
      ExecuteConnectsOnce(s', sqls[1..]);
    }
  }

  /** Run statements one after the other, stopping at the first refused one. */
  function ExecuteAll(s: SQLite, sqls: seq<string>): SQLite
    decreases |sqls|
  {
    if |sqls| == 0 then s
    else
      match Execute(s, Some(sqls[0]))
      case Failure(_) => s
      case Success(s') => ExecuteAll(s', sqls[1..])
  }

  /** `executeInsert`: the cursor's last row id, or 0 when it is missing or zero. */
  function ExecuteInsert(s: SQLite, sql: Option<string>, lastRowId: Option<int>): (r: Result<(SQLite, int), string>)
    ensures r.Failure? <==> Execute(s, sql).Failure?
    ensures r.Success? ==> r.value.0 == Execute(s, sql).value
    ensures r.Success? ==> (r.value.1 == 0 <==> lastRowId.None? || lastRowId.value == 0)
    ensures r.Success? && r.value.1 != 0 ==> lastRowId == Some(r.value.1)
  {
    match Execute(s, sql)
    case Failure(e) => Failure(e)
    case Success(s') => Success((s', if lastRowId.Some? && lastRowId.value != 0 then lastRowId.value else 0))
  }

  /** `hasTable`: whether the `COUNT(*)` row fetched counts any table of that name. */
  function HasTable(s: SQLite, tableName: string, countRow: Option<int>): (r: (SQLite, bool))
    ensures r.1 <==> countRow.Some? && countRow.value > 0
    ensures r.0 == Connect(s)
  {
    (Connect(s), countRow.Some? && countRow.value > 0)
  }

  // ------------------------------------------------------------------ CSVImporter

  /** `re.sub(r'\W+', '', field)`: every non-word character deleted. */
  function SanitizeField(f: string): (r: string)
    ensures forall i | 0 <= i < |r| :: IsWordChar(r[i])
    ensures |r| <= |f|
    ensures forall i | 0 <= i < |f| && IsWordChar(f[i]) :: f[i] in r
    decreases |f|
  {
    if |f| == 0 then ""
    else if IsWordChar(f[0]) then [f[0]] + SanitizeField(f[1..])
    else SanitizeField(f[1..])
  }

  /** Sanitising keeps a field that is all word characters, so sanitising twice changes nothing. */
  lemma {:induction false} SanitizeKeepsWords(f: string)
    requires forall i | 0 <= i < |f| :: IsWordChar(f[i])
    ensures SanitizeField(f) == f
    decreases |f|
  {
    if |f| > 0 {
      SanitizeKeepsWords(f[1..]);
      assert f == [f[0]] + f[1..];
    }
  }

  lemma SanitizeIdempotent(f: string)
    ensures SanitizeField(SanitizeField(f)) == SanitizeField(f)
  {
    SanitizeKeepsWords(SanitizeField(f));
  }

  function Sanitize(header: seq<string>): (r: seq<string>)
    ensures |r| == |header| && forall i | 0 <= i < |r| :: r[i] == SanitizeField(header[i])
  {
    seq(|header|, i requires 0 <= i < |header| => SanitizeField(header[i]))
  }

  /** `CREATE TABLE t (\n\t f1 VARCHAR,\n\t f2 VARCHAR ...\n)`. */
  function CreateSql(table: string, fields: seq<string>): string
  {
    "CREATE TABLE " + table + " (\n\t" + Join(",\n\t", Columns(fields)) + "\n)"
  }

  function Columns(fields: seq<string>): (r: seq<string>)
    ensures |r| == |fields| && forall i | 0 <= i < |r| :: r[i] == fields[i] + " VARCHAR"
  {
    seq(|fields|, i requires 0 <= i < |fields| => fields[i] + " VARCHAR")
  }

  /** One `?` per field. */
  function Placeholders(n: nat): (r: seq<string>)
    ensures |r| == n && forall i | 0 <= i < n :: r[i] == "?"
  {
    seq(n, i => "?")
  }

  /** `INSERT INTO t (f1, f2, ...) VALUES (?, ?, ...)`. */
  function InsertSql(table: string, fields: seq<string>): string
  {
    "INSERT INTO " + table + " (" + Join(", ", fields) + ") VALUES (" + Join(", ", Placeholders(|fields|)) + ")"
  }

  /** A statement the importer executes, with its parameters. */
  datatype Statement = Statement(sql: string, params: seq<string>)

  /**
    `import_to`: the header row yields the CREATE statement without parameters, and every
    later row the INSERT statement with that row as its parameters.
   */
  function ImportStatements(table: string, rows: seq<seq<string>>): (r: seq<Statement>)
    ensures |r| == |rows|
    ensures |rows| > 0 ==> r[0] == Statement(CreateSql(table, Sanitize(rows[0])), [])
    ensures forall i | 1 <= i < |rows| :: r[i] == Statement(InsertSql(table, Sanitize(rows[0])), rows[i])
  {
    if |rows| == 0 then []
    else
      var fields := Sanitize(rows[0]);
      [Statement(CreateSql(table, fields), [])]
      + seq(|rows| - 1, i requires 0 <= i < |rows| - 1 => Statement(InsertSql(table, fields), rows[i + 1]))
  }

  /** No sanitised field holds `c` unless it is a word character. */
  lemma {:induction false} CountAllSanitized(header: seq<string>, c: char)
    requires !IsWordChar(c)
    ensures CountAll(Sanitize(header), c) == 0
    decreases |header|
  {
    if |header| > 0 {
      var f := Sanitize(header);
      assert c !in f[0];
      CountCharAbsent(f[0], c);
      assert f[1..] == Sanitize(header[1..]);
      CountAllSanitized(header[1..], c);
    }
  }

  lemma {:induction false} CountAllPlaceholders(n: nat)
    ensures CountAll(Placeholders(n), '?') == n
    decreases n
  {
    if n > 0 {
      assert Placeholders(n)[1..] == Placeholders(n - 1);
      CountAllPlaceholders(n - 1);
      assert CountChar("?", '?') == 1;
    }
  }

  /** Counting over text pieced together from fixed parts `a`, `p`, `q`, `e` that lack `ch`. */
  lemma CountCharPieces(a: string, t: string, p: string, b: string, q: string, d: string, e: string, ch: char)
    requires ch !in a && ch !in p && ch !in q && ch !in e
    ensures CountChar(a + t + p + b + q + d + e, ch) == CountChar(t, ch) + CountChar(b, ch) + CountChar(d, ch)
  {
    CountCharAbsent(a, ch);
    CountCharAbsent(p, ch);
    CountCharAbsent(q, ch);
    CountCharAbsent(e, ch);
    CountCharAppend(a, t, ch);
    CountCharAppend(a + t, p, ch);
    CountCharAppend(a + t + p, b, ch);
    CountCharAppend(a + t + p + b, q, ch);
    CountCharAppend(a + t + p + b + q, d, ch);
    CountCharAppend(a + t + p + b + q + d, e, ch);
  }

  /**
    The INSERT statement has exactly one `?` placeholder per header field, whatever the header
    held, provided the table name has none.
   */
  lemma InsertPlaceholderCount(table: string, header: seq<string>)
    requires '?' !in table
    ensures CountChar(InsertSql(table, Sanitize(header)), '?') == |header|
  {
    var fields := Sanitize(header);
    var n := |fields|;
    var b := Join(", ", fields);
    var d := Join(", ", Placeholders(n));
    JoinedPieceCounts(header);
    InsertTextCount(table, b, d, n);
    assert InsertSql(table, fields) == "INSERT INTO " + table + " (" + b + ") VALUES (" + d + ")";
  }

  lemma JoinedPieceCounts(header: seq<string>)
    ensures CountChar(Join(", ", Sanitize(header)), '?') == 0
    ensures CountChar(Join(", ", Placeholders(|header|)), '?') == |header|
  {
    var fields := Sanitize(header);
    var n := |fields|;
    CountAllSanitized(header, '?');
    CountAllPlaceholders(n);
    if n > 0 {
      CountCharJoin(", ", fields, '?');
      CountCharJoin(", ", Placeholders(n), '?');
      CountCharAbsent(", ", '?');
    }
  }

  lemma InsertTextCount(table: string, b: string, d: string, n: nat)
    requires '?' !in table && CountChar(b, '?') == 0 && CountChar(d, '?') == n
    ensures CountChar("INSERT INTO " + table + " (" + b + ") VALUES (" + d + ")", '?') == n
  {
    CountCharAbsent(table, '?');
    CountCharPieces("INSERT INTO ", table, " (", b, ") VALUES (", d, ")", '?');
  }

  /**
    The CREATE statement declares one column per header field: its commas are exactly the
    separators between columns, provided the table name has none.
   */
  lemma CreateColumnCount(table: string, header: seq<string>)
    requires ',' !in table && |header| > 0
    ensures CountChar(CreateSql(table, Sanitize(header)), ',') == |header| - 1
  {
    var fields := Sanitize(header);
    var cols := Columns(fields);
    ColumnsCommaCount(header);
    CreateTextCount(table, Join(",\n\t", cols), |header| - 1);
    assert CreateSql(table, fields) == "CREATE TABLE " + table + " (\n\t" + Join(",\n\t", cols) + "\n)" + "" + "";
  }

  lemma ColumnsCommaCount(header: seq<string>)
    requires |header| > 0
    ensures CountChar(Join(",\n\t", Columns(Sanitize(header))), ',') == |header| - 1
  {
    var fields := Sanitize(header);
    CountAllSanitized(header, ',');
    CountAllColumns(fields);
    CountCharJoin(",\n\t", Columns(fields), ',');
    assert CountChar(",\n\t", ',') == 1;
  }

  lemma CreateTextCount(table: string, b: string, n: nat)
    requires ',' !in table && CountChar(b, ',') == n
    ensures CountChar("CREATE TABLE " + table + " (\n\t" + b + "\n)" + "" + "", ',') == n
  {
    CountCharAbsent(table, ',');
    CountCharAbsent("", ',');
    CountCharPieces("CREATE TABLE ", table, " (\n\t", b, "\n)", "", "", ',');
  }

  lemma {:induction false} CountAllColumns(fields: seq<string>)
    requires CountAll(fields, ',') == 0
    ensures CountAll(Columns(fields), ',') == 0
    decreases |fields|
  {
    if |fields| > 0 {
      CountCharAppend(fields[0], " VARCHAR", ',');
      assert Columns(fields)[1..] == Columns(fields[1..]);
      CountAllColumns(fields[1..]);
    }
  }
}

=== FILE: strings.dfy ===
/** The handful of Python `str` operations the lookup helpers rely on, over ASCII text. */
module Strings {

  /** `sep.join(parts)`. */
  function Join(sep: string, parts: seq<string>): string
  {
    if |parts| == 0 then ""
    else if |parts| == 1 then parts[0]
    else parts[0] + sep + Join(sep, parts[1..])
  }

  /** `s.index(c)`: the position of the first occurrence of `c`. */
  function IndexOf(s: string, c: char): (r: nat)
    requires c in s
    ensures r < |s| && s[r] == c
    ensures c !in s[..r]
  {
    if s[0] == c then 0
    else
      var k := IndexOf(s[1..], c);
      assert s[..k + 1] == [s[0]] + s[1..][..k];
      1 + k
  }

  /** `s.split(c)` for a one-character separator: the pieces between the separators. */
  function Split(s: string, c: char): (r: seq<string>)
    ensures |r| >= 1
    ensures forall i :: 0 <= i < |r| ==> c !in r[i]
    ensures Join([c], r) == s
    decreases |s|
  {
    if c in s then
      var i := IndexOf(s, c);
      var rest := Split(s[i + 1..], c);
      assert s == s[..i] + [c] + s[i + 1..];
      [s[..i]] + rest
    else
      [s]
  }

  lemma IndexOfJoined(a: string, c: char, b: string)
    requires c !in a
    ensures c in a + [c] + b
    ensures IndexOf(a + [c] + b, c) == |a|
    decreases |a|
  {
    var s := a + [c] + b;
    assert s[|a|] == c;
    if |a| > 0 {
      assert s[1..] == a[1..] + [c] + b;
      IndexOfJoined(a[1..], c, b);
    }
  }

  /** The first piece of a split is the text before the first separator. */
  lemma SplitHead(a: string, c: char, b: string)
    requires c !in a
    ensures Split(a + [c] + b, c)[0] == a
  {
    var s := a + [c] + b;
    IndexOfJoined(a, c, b);
    assert s[..|a|] == a;
  }

  /** Splitting a joined list gives the list back when no item holds the separator. */
  lemma {:induction false} SplitJoin(xs: seq<string>, c: char)
    requires |xs| >= 1
    requires forall i :: 0 <= i < |xs| ==> c !in xs[i]
    ensures Split(Join([c], xs), c) == xs
    decreases |xs|
  {
    if |xs| == 1 {
      assert Join([c], xs) == xs[0];
    } else {
      var rest := Join([c], xs[1..]);
      var s := xs[0] + [c] + rest;
      assert Join([c], xs) == s;
      IndexOfJoined(xs[0], c, rest);
      assert s[..|xs[0]|] == xs[0];
      assert s[|xs[0]| + 1..] == rest;
      SplitJoin(xs[1..], c);
      assert Split(s, c) == [xs[0]] + Split(rest, c);
      assert xs == [xs[0]] + xs[1..];
    }
  }

  /** A character in neither the separator nor any item is not in their join. */
  lemma {:induction false} JoinAvoids(sep: string, xs: seq<string>, c: char)
    requires c !in sep
    requires forall i :: 0 <= i < |xs| ==> c !in xs[i]
    ensures c !in Join(sep, xs)
    decreases |xs|
  {
    if |xs| > 1 {
      JoinAvoids(sep, xs[1..], c);
    }
  }

  /** The number of occurrences of `c` in `s`. */
  function CountChar(s: string, c: char): nat
  {
    if |s| == 0 then 0
    else (if s[0] == c then 1 else 0) + CountChar(s[1..], c)
  }

  lemma CountCharAppend(a: string, b: string, c: char)
    ensures CountChar(a + b, c) == CountChar(a, c) + CountChar(b, c)
    decreases |a|
  {
    if |a| > 0 {
      assert (a + b)[1..] == a[1..] + b;
      CountCharAppend(a[1..], b, c);
    } else {
      assert a + b == b;
    }
  }

  lemma CountCharAbsent(s: string, c: char)
    requires c !in s
    ensures CountChar(s, c) == 0
    decreases |s|
  {
    if |s| > 0 {
      CountCharAbsent(s[1..], c);
    }
  }

  /** The occurrences of `c` in all of `xs` together. */
  function CountAll(xs: seq<string>, c: char): nat
  {
    if |xs| == 0 then 0 else CountChar(xs[0], c) + CountAll(xs[1..], c)
  }

  /** Joining adds one separator's worth of occurrences between each pair of items. */
  lemma {:induction false} CountCharJoin(sep: string, xs: seq<string>, c: char)
    requires |xs| >= 1
    ensures CountChar(Join(sep, xs), c) == CountAll(xs, c) + (|xs| - 1) * CountChar(sep, c)
    decreases |xs|
  {
    if |xs| == 1 {
      assert xs[1..] == [];
    } else {
      CountCharJoin(sep, xs[1..], c);
      CountCharAppend(xs[0] + sep, Join(sep, xs[1..]), c);
      CountCharAppend(xs[0], sep, c);
    }
  }

  // ---------------------------------------------------------------- ASCII classes

  /** A regular-expression word character (`\w`), restricted to ASCII. */
  predicate IsWordChar(c: char)
  {
    ('a' <= c <= 'z') || ('A' <= c <= 'Z') || ('0' <= c <= '9') || c == '_'
  }

  /** A character Python's `str.strip()` removes, restricted to ASCII. */
  predicate IsSpace(c: char)
  {
    (9 <= c as int <= 13) || (28 <= c as int <= 32)
  }

  function ToLower(c: char): char
  {
    if 'A' <= c <= 'Z' then (c as int + 32) as char else c
  }

  function ToUpper(c: char): char
  {
    if 'a' <= c <= 'z' then (c as int - 32) as char else c
  }

  /** `s.lower()`. */
  function Lower(s: string): (r: string)
    ensures |r| == |s|
    ensures forall i :: 0 <= i < |s| ==> r[i] == ToLower(s[i])
  {
    seq(|s|, i requires 0 <= i < |s| => ToLower(s[i]))
  }

  /** `s.lstrip()`: drop leading whitespace. */
  function TrimLeft(s: string): (r: string)
    ensures |r| <= |s| && r == s[|s| - |r|..]
    ensures forall i :: 0 <= i < |s| - |r| ==> IsSpace(s[i])
    ensures |r| > 0 ==> !IsSpace(r[0])
  {
    if |s| > 0 && IsSpace(s[0]) then TrimLeft(s[1..]) else s
  }

  /** `s.rstrip()`: drop trailing whitespace. */
  function TrimRight(s: string): (r: string)
    ensures |r| <= |s| && r == s[..|r|]
    ensures forall i :: |r| <= i < |s| ==> IsSpace(s[i])
    ensures |r| > 0 ==> !IsSpace(r[|r| - 1])
  {
    if |s| > 0 && IsSpace(s[|s| - 1]) then TrimRight(s[..|s| - 1]) else s
  }

  /** The length of the run of whitespace `s` starts with. */
  function LeadingSpaces(s: string): (k: nat)
    ensures k <= |s|
    ensures forall i | 0 <= i < k :: IsSpace(s[i])
    ensures k < |s| ==> !IsSpace(s[k])
  {
    if |s| > 0 && IsSpace(s[0]) then 1 + LeadingSpaces(s[1..]) else 0
  }

  /** `r` is `s` without its leading and trailing whitespace. */
  predicate Stripped(s: string, r: string)
  {
    var k := LeadingSpaces(s);
    && k + |r| <= |s|
    && r == s[k..k + |r|]
    && (forall i | k + |r| <= i < |s| :: IsSpace(s[i]))
    && (|r| > 0 ==> !IsSpace(r[|r| - 1]))
  }

  /** `s.strip()`. */
  function Strip(s: string): (r: string)
    ensures Stripped(s, r)
  {
    LemmaStrip(s);
    TrimRight(TrimLeft(s))
  }

  lemma LemmaStrip(s: string)
    ensures Stripped(s, TrimRight(TrimLeft(s)))
  {
    var l := TrimLeft(s);
    LemmaTrimLeftCount(s);
    LemmaStrippedParts(s, l, TrimRight(l), |s| - |l|);
  }

  /** `r`, a prefix of `l` followed by whitespace only, where `l` follows the leading whitespace. */
  lemma LemmaStrippedParts(s: string, l: string, r: string, k: nat)
    requires k == LeadingSpaces(s) && k + |l| == |s| && l == s[k..]
    requires |r| <= |l| && r == l[..|r|]
    requires forall i | |r| <= i < |l| :: IsSpace(l[i])
    requires |r| > 0 ==> !IsSpace(r[|r| - 1])
    ensures Stripped(s, r)
  {
    assert r == s[k..k + |r|];
    forall i | k + |r| <= i < |s|
      ensures IsSpace(s[i])
    {
      assert s[i] == l[i - k];
    }
  }

  lemma LemmaTrimLeftCount(s: string)
    ensures |s| - |TrimLeft(s)| == LeadingSpaces(s)
  {
    if |s| > 0 && IsSpace(s[0]) {
      LemmaTrimLeftCount(s[1..]);
    }
  }

  // ---------------------------------------------------------------- replace

  /** `pat` occurs somewhere in `s`. */
  predicate Contains(s: string, pat: string)
  {
    exists i :: 0 <= i <= |s| && pat <= s[i..]
  }

  /** `s.replace(pat, "")`: every occurrence of `pat`, found left to right, deleted. */
  function RemoveAll(s: string, pat: string): string
    requires |pat| > 0
    decreases |s|
  {
    if |s| == 0 then ""
    else if pat <= s then RemoveAll(s[|pat|..], pat)
    else [s[0]] + RemoveAll(s[1..], pat)
  }

  /** A string in which `pat` never occurs is left alone. */
  lemma {:induction false} RemoveAllAbsent(s: string, pat: string)
    requires |pat| > 0 && !Contains(s, pat)
    ensures RemoveAll(s, pat) == s
    decreases |s|
  {
    if |s| > 0 {
      assert s[0..] == s;
      forall i | 0 <= i <= |s[1..]|
        ensures !(pat <= s[1..][i..])
      {
        assert s[1..][i..] == s[i + 1..];
      }
      RemoveAllAbsent(s[1..], pat);
    }
  }

  /**
    Deleting `pat` from `x + pat` recovers `x`, provided `pat` does not occur in `x` and the
    first character of `pat` does not recur inside it (true of every suffix the link scripts
    strip), so that no occurrence can straddle the boundary.
   */
  lemma {:induction false} RemoveAllSuffix(x: string, pat: string)
    requires |pat| > 0 && pat[0] !in pat[1..]
    requires !Contains(x, pat)
    ensures RemoveAll(x + pat, pat) == x
    decreases |x|
  {
    var s := x + pat;
    if |x| == 0 {
      assert s == pat;
      assert s[|pat|..] == "";
    } else {
      assert s[1..] == x[1..] + pat;
      forall i | 0 <= i <= |x[1..]|
        ensures !(pat <= x[1..][i..])
      {
        assert x[1..][i..] == x[i + 1..];
      }
      RemoveAllSuffix(x[1..], pat);
      assert !(pat <= s) by {
        if |x| >= |pat| {
          assert x[0..] == x;
          assert !(pat <= x);
          assert s[..|pat|] == x[..|pat|];
        } else {
          assert pat[1..][|x| - 1] == pat[|x|];
          assert s[|x|] == pat[0] != pat[|x|];
        }
      }
      assert RemoveAll(s, pat) == [s[0]] + RemoveAll(s[1..], pat);
      assert x == [x[0]] + x[1..];
    }
  }
}

=== FILE: umls.dfy ===
/**
  CUI parsing and meaning formatting of `UMLSLookup` (`umls.py`).

  The `descriptions` table is an oracle: `rows(cui)` is every description of a concept in the
  order the database returns them, and `search(pattern)` the concepts whose name is `LIKE`
  the pattern.
 */
module Umls {
  import opened Wrappers
  import opened Strings

  /** One `descriptions` row: name (STR), source (SAB) and semantic type (STY). */
  datatype Description = Description(str: string, sab: string, sty: string)

  /** The sources a preferred lookup keeps. */
  predicate IsPreferredSource(sab: string)
  {
    sab == "SNOMEDCT" || sab == "MTH"
  }

  /** `SAB IN ("SNOMEDCT", "MTH")` when `preferred`, in query order. */
  function Restrict(rows: seq<Description>, preferred: bool): (r: seq<Description>)
    ensures !preferred ==> r == rows
    ensures preferred ==> forall d :: d in r <==> d in rows && IsPreferredSource(d.sab)
    ensures |r| <= |rows|
  {
    if !preferred || rows == [] then rows
    else
      var rest := Restrict(rows[1..], preferred);
      if IsPreferredSource(rows[0].sab) then [rows[0]] + rest else rest
  }

  // ------------------------------------------------------------------ CUI parsing

  /** A parsed CUI: whether it was negated, and the key it is looked up under. */
  datatype Cui = Cui(negated: bool, key: string)

  /** A leading `-` negates; the key is the rest up to the first `@`. */
  function ParseCui(cui: string): (r: Cui)
    requires cui != ""
    ensures r.negated <==> cui[0] == '-'
    ensures '@' !in r.key
    ensures var rest := if r.negated then cui[1..] else cui;
            r.key <= rest && (r.key == rest || rest[|r.key|] == '@')
  {
    var rest := if cui[0] == '-' then cui[1..] else cui;
    var parts := Split(rest, '@');
    LemmaFirstPiece(rest, '@');
    Cui(cui[0] == '-', parts[0])
  }

  /** The first piece of a split is the text before the first separator. */
  lemma LemmaFirstPiece(s: string, c: char)
    ensures Split(s, c)[0] <= s
    ensures Split(s, c)[0] == s || s[|Split(s, c)[0]|] == c
  {
    if c in s {
      var i := IndexOf(s, c);
      assert Split(s, c)[0] == s[..i];
    }
  }

  /** A key followed by nothing or by `@...` splits back to the key. */
  lemma LemmaKeyPiece(key: string, tail: string)
    requires '@' !in key
    requires tail == "" || tail[0] == '@'
    ensures Split(key + tail, '@')[0] == key
  {
    if tail == "" {
      assert key + tail == key;
      assert Split(key, '@') == [key];
    } else {
      assert tail == ['@'] + tail[1..];
      assert key + tail == key + ['@'] + tail[1..];
      SplitHead(key, '@', tail[1..]);
    }
  }

  /** Writing a key, with or without a negation and a qualifier, parses back to it. */
  lemma ParseCuiRoundTrip(key: string, negated: bool, qualifier: Option<string>)
    requires key != "" && key[0] != '-' && '@' !in key
    ensures var cui := (if negated then "-" else "") + key + (if qualifier.Some? then "@" + qualifier.value else "");
            ParseCui(cui) == Cui(negated, key)
  {
    var tail := if qualifier.Some? then "@" + qualifier.value else "";
    var cui := (if negated then "-" else "") + key + tail;
    assert cui == (if negated then "-" else "") + (key + tail);
    var rest := if negated then cui[1..] else cui;
    assert rest == key + tail;
    assert cui[0] == '-' <==> negated;
    LemmaKeyPiece(key, tail);
  }

  // ------------------------------------------------------------------ lookup_code

  /** What `lookup_code` puts in its list: a row, or for a negated CUI a bare string. */
  datatype Hit = Triple(d: Description) | Text(s: string)

  /** The marker a negated hit's name carries. */
  const NegatedMarker := "[NEGATED] "

  /**
    `lookup_code` as written: nothing for a missing or empty CUI; otherwise the rows of the key,
    unchanged, or for a negated CUI the string `[NEGATED] STR` in place of each row.
   */
  function LookupCodeAsWritten(cui: Option<string>, rows: string -> seq<Description>, preferred: bool)
    : (r: seq<Hit>)
    ensures cui.None? || cui.value == "" ==> r == []
    ensures cui.Some? && cui.value != "" ==>
              var found := Restrict(rows(ParseCui(cui.value).key), preferred);
              && |r| == |found|
              && forall i | 0 <= i < |r| ::
                   r[i] == if ParseCui(cui.value).negated then Text(NegatedMarker + found[i].str) else Triple(found[i])
  {
    if cui.None? || |cui.value| < 1 then []
    else
      var c := ParseCui(cui.value);
      var found := Restrict(rows(c.key), preferred);
      seq(|found|, i requires 0 <= i < |found| =>
        if c.negated then Text(NegatedMarker + found[i].str) else Triple(found[i]))
  }

  /**
    `lookup_code` with a negated row kept as a row whose name carries the marker, the shape
    its docstring promises and `lookup_code_meaning` indexes into.
   */
  function LookupCode(cui: Option<string>, rows: string -> seq<Description>, preferred: bool)
    : (r: seq<Description>)
    ensures cui.None? || cui.value == "" ==> r == []
    ensures cui.Some? && cui.value != "" ==>
              var found := Restrict(rows(ParseCui(cui.value).key), preferred);
              && |r| == |found|
              && forall i | 0 <= i < |r| ::
                   && r[i].sab == found[i].sab && r[i].sty == found[i].sty
                   && r[i].str == if ParseCui(cui.value).negated then NegatedMarker + found[i].str else found[i].str
  {
    if cui.None? || |cui.value| < 1 then []
    else
      var c := ParseCui(cui.value);
      var found := Restrict(rows(c.key), preferred);
      seq(|found|, i requires 0 <= i < |found| =>
        if c.negated then found[i].(str := NegatedMarker + found[i].str) else found[i])
  }

  // ------------------------------------------------------------------ lookup_code_meaning

  /** One description as `STR (SAB)  [STY]`, or the HTML form. */
  function FormatDescription(str: string, sab: string, sty: string, noHtml: bool): (r: string)
    ensures noHtml ==> r == str + " (" + sab + ")  [" + sty + "]"
    ensures !noHtml ==> r == str + " (<span style=\"color:#090;\">" + sab + "</span>: " + sty + ")"
  {
    if noHtml then str + " (" + sab + ")  [" + sty + "]"
    else str + " (<span style=\"color:#090;\">" + sab + "</span>: " + sty + ")"
  }

  function MeaningSeparator(noHtml: bool): string
  {
    if noHtml then ", " else "<br/>\n"
  }

  /**
    `res[0]`, `res[1]`, `res[2]` of a hit: the fields of a row, but the first three
    CHARACTERS of a bare string.
   */
  function FieldsAsWritten(h: Hit): (string, string, string)
    requires h.Text? ==> |h.s| >= 3
  {
    match h
    case Triple(d) => (d.str, d.sab, d.sty)
    case Text(s) => ([s[0]], [s[1]], [s[2]])
  }

  /** `n` copies of `s`. */
  function Repeat(s: string, n: nat): (r: seq<string>)
    ensures |r| == n && forall i | 0 <= i < n :: r[i] == s
  {
    seq(n, i => s)
  }

  /**
    The entry as written for a negated hit: the first three characters of `[NEGATED] ` in the
    name, source and type places, `[ (N)  [E]` in plain text.
   */
  function GarbledEntry(noHtml: bool): string
  {
    FormatDescription("[", "N", "E", noHtml)
  }

  /**
    `lookup_code_meaning` as written, over `LookupCodeAsWritten`: for a CUI without negation it
    is the corrected meaning, but for a negated one every entry is the garbled one.
   */
  function MeaningAsWritten(cui: Option<string>, rows: string -> seq<Description>, preferred: bool, noHtml: bool)
    : (r: string)
    ensures r == "" <==> LookupCodeAsWritten(cui, rows, preferred) == []
    ensures cui.None? || cui.value == "" || !ParseCui(cui.value).negated ==>
              r == LookupCodeMeaning(cui, rows, preferred, noHtml)
    ensures cui.Some? && cui.value != "" && ParseCui(cui.value).negated && r != "" ==>
              r == Join(MeaningSeparator(noHtml), Repeat(GarbledEntry(noHtml), |LookupCodeAsWritten(cui, rows, preferred)|))
  {
    var hits := LookupCodeAsWritten(cui, rows, preferred);
    var names := EntriesAsWritten(hits, noHtml);
    if |names| > 0 then
      LemmaJoinNonEmpty(MeaningSeparator(noHtml), names);
      if cui.Some? && cui.value != "" && ParseCui(cui.value).negated then
        LemmaNegatedEntries(cui.value, rows, preferred, noHtml);
        Join(MeaningSeparator(noHtml), names)
      else
        LemmaPlainEntries(cui, rows, preferred, noHtml);
        Join(MeaningSeparator(noHtml), names)
    else ""
  }

  /** The hits formatted through `res[0]`, `res[1]`, `res[2]`. */
  function EntriesAsWritten(hits: seq<Hit>, noHtml: bool): (r: seq<string>)
    requires forall i | 0 <= i < |hits| :: hits[i].Text? ==> |hits[i].s| >= 3
    ensures |r| == |hits| && (|r| > 0 ==> r[0] != "")
  {
    seq(|hits|, i requires 0 <= i < |hits| =>
      var f := FieldsAsWritten(hits[i]);
      FormatDescription(f.0, f.1, f.2, noHtml))
  }

  /** Without negation the entries as written are the corrected entries. */
  lemma LemmaPlainEntries(cui: Option<string>, rows: string -> seq<Description>, preferred: bool, noHtml: bool)
    requires cui.None? || cui.value == "" || !ParseCui(cui.value).negated
    ensures EntriesAsWritten(LookupCodeAsWritten(cui, rows, preferred), noHtml)
            == Entries(LookupCode(cui, rows, preferred), noHtml)
  {
    if cui.Some? && cui.value != "" {
      var hits := LookupCodeAsWritten(cui, rows, preferred);
      var fixed := LookupCode(cui, rows, preferred);
      var found := Restrict(rows(ParseCui(cui.value).key), preferred);
      forall i | 0 <= i < |hits|
        ensures EntriesAsWritten(hits, noHtml)[i] == Entries(fixed, noHtml)[i]
      {
        assert hits[i] == Triple(found[i]);
        assert fixed[i] == found[i];
      }
    }
  }

  /** With negation every entry as written is the garbled one. */
  lemma LemmaNegatedEntries(cui: string, rows: string -> seq<Description>, preferred: bool, noHtml: bool)
    requires cui != "" && ParseCui(cui).negated
    ensures var hits := LookupCodeAsWritten(Some(cui), rows, preferred);
            EntriesAsWritten(hits, noHtml) == Repeat(GarbledEntry(noHtml), |hits|)
  {
    var hits := LookupCodeAsWritten(Some(cui), rows, preferred);
    var found := Restrict(rows(ParseCui(cui).key), preferred);
    forall i | 0 <= i < |hits|
      ensures EntriesAsWritten(hits, noHtml)[i] == GarbledEntry(noHtml)
    {
      assert hits[i] == Text(NegatedMarker + found[i].str);
      assert FieldsAsWritten(hits[i]) == ("[", "N", "E");
    }
  }

  /**
    The defect: a negated CUI's meaning is built from the characters `[`, `N`, `E` of the
    marker, whatever the concept's name, source and type are.
   */
  lemma NegatedMeaningAsWritten(key: string, d: Description)
    requires key != "" && key[0] != '-' && '@' !in key
    ensures var rows := (k: string) => if k == key then [d] else [];
            MeaningAsWritten(Some("-" + key), rows, false, true) == "[ (N)  [E]"
  {
    var rows := (k: string) => if k == key then [d] else [];
    ParseCuiRoundTrip(key, true, None);
    assert ("-" + key + "") == "-" + key;
    var hits := LookupCodeAsWritten(Some("-" + key), rows, false);
    assert hits == [Text(NegatedMarker + d.str)];
    assert FieldsAsWritten(hits[0]) == ("[", "N", "E");
  }

  /** One entry of the meaning of each description. */
  function Entries(ds: seq<Description>, noHtml: bool): (r: seq<string>)
    ensures |r| == |ds|
    ensures forall i | 0 <= i < |ds| :: r[i] == FormatDescription(ds[i].str, ds[i].sab, ds[i].sty, noHtml)
  {
    seq(|ds|, i requires 0 <= i < |ds| => FormatDescription(ds[i].str, ds[i].sab, ds[i].sty, noHtml))
  }

  /**
    `lookup_code_meaning` over the corrected `LookupCode`: "" when nothing is found, otherwise
    every description formatted in order and joined with `, ` (or an HTML line break).
   */
  function LookupCodeMeaning(cui: Option<string>, rows: string -> seq<Description>, preferred: bool, noHtml: bool)
    : (r: string)
    ensures LookupCode(cui, rows, preferred) == [] <==> r == ""
    ensures LookupCode(cui, rows, preferred) != [] ==>
              r == Join(MeaningSeparator(noHtml), Entries(LookupCode(cui, rows, preferred), noHtml))
  {
    var names := Entries(LookupCode(cui, rows, preferred), noHtml);
    if |names| > 0 then
      LemmaJoinNonEmpty(MeaningSeparator(noHtml), names);
      Join(MeaningSeparator(noHtml), names)
    else ""
  }

  lemma LemmaJoinNonEmpty(sep: string, names: seq<string>)
    requires |names| > 0 && names[0] != ""
    ensures Join(sep, names) != ""
  {
    if |names| > 1 {
      assert |Join(sep, names)| >= |names[0]|;
    }
  }

  /** A prefix on the name is a prefix on the formatted entry. */
  lemma FormatPrefix(m: string, str: string, sab: string, sty: string, noHtml: bool)
    ensures FormatDescription(m + str, sab, sty, noHtml) == m + FormatDescription(str, sab, sty, noHtml)
  {
  }

  /**
    With the correction, the meaning of a negated CUI lists the same descriptions as the plain
    CUI, each entry prefixed with the marker.
   */
  lemma NegatedMeaning(key: string, rows: string -> seq<Description>, preferred: bool, noHtml: bool)
    requires key != "" && key[0] != '-' && '@' !in key
    ensures var plain := Entries(LookupCode(Some(key), rows, preferred), noHtml);
            var neg := Entries(LookupCode(Some("-" + key), rows, preferred), noHtml);
            |neg| == |plain| && forall i | 0 <= i < |neg| :: neg[i] == NegatedMarker + plain[i]
  {
    ParseCuiRoundTrip(key, true, None);
    ParseCuiRoundTrip(key, false, None);
    assert "-" + key + "" == "-" + key;
    assert "" + key + "" == key;
    var found := Restrict(rows(key), preferred);
    var plainHits := LookupCode(Some(key), rows, preferred);
    var negHits := LookupCode(Some("-" + key), rows, preferred);
    var plain := Entries(plainHits, noHtml);
    var neg := Entries(negHits, noHtml);
    forall i | 0 <= i < |neg|
      ensures neg[i] == NegatedMarker + plain[i]
    {
      var d := found[i];
      assert plainHits[i] == d;
      assert negHits[i] == Description(NegatedMarker + d.str, d.sab, d.sty);
      FormatPrefix(NegatedMarker, d.str, d.sab, d.sty, noHtml);
    }
  }

  // ------------------------------------------------------------------ lookup_code_for_name

  /** A concept `lookup_code_for_name` returns: CUI, source and semantic type. */
  datatype Concept = Concept(cui: string, sab: string, sty: string)

  /** The `LIKE` pattern that matches any name containing `name`. */
  function ContainsPattern(name: string): (p: string)
    ensures |p| == |name| + 2 && p[0] == '%' && p[|p| - 1] == '%' && p[1..|p| - 1] == name
  {
    "%" + name + "%"
  }

  /**
    `lookup_code_for_name`: `None` for a missing or empty name; otherwise what the search
    returns for the containment pattern, restricted to the preferred sources when asked.
   */
  function LookupCodeForName(name: Option<string>, search: string -> seq<Concept>, preferred: bool)
    : (r: Option<seq<Concept>>)
    ensures r.None? <==> name.None? || name.value == ""
    ensures r.Some? ==> forall c | c in r.value :: c in search(ContainsPattern(name.value))
    ensures r.Some? && preferred ==>
              forall c :: c in r.value <==> c in search(ContainsPattern(name.value)) && IsPreferredSource(c.sab)
    ensures r.Some? && !preferred ==> r.value == search(ContainsPattern(name.value))
  {
    if name.None? || |name.value| < 1 then None
    else
      var found := search(ContainsPattern(name.value));
      Some(if preferred then RestrictConcepts(found) else found)
  }

  /** `SAB IN ("SNOMEDCT", "MTH")` over concepts, in query order. */
  function RestrictConcepts(cs: seq<Concept>): (r: seq<Concept>)
    ensures forall c :: c in r <==> c in cs && IsPreferredSource(c.sab)
    ensures |r| <= |cs|
    ensures (forall i | 0 <= i < |cs| :: IsPreferredSource(cs[i].sab)) ==> r == cs
  {
    if cs == [] then []
    else
      var rest := RestrictConcepts(cs[1..]);
      if IsPreferredSource(cs[0].sab) then [cs[0]] + rest else rest
  }

  /**
    The preferred lookup keeps exactly the plain lookup's concepts from a preferred source:
    both answer the same names, and a concept is in the preferred result exactly when it is in
    the plain one and comes from SNOMEDCT or MTH.
   */
  lemma PreferredLookupFiltersPlain(name: Option<string>, search: string -> seq<Concept>)
    ensures LookupCodeForName(name, search, true).None? <==> LookupCodeForName(name, search, false).None?
    ensures LookupCodeForName(name, search, true).Some? ==>
              var pref := LookupCodeForName(name, search, true).value;
              var plain := LookupCodeForName(name, search, false).value;
              forall c :: c in pref <==> c in plain && IsPreferredSource(c.sab)
  {
  }
}

=== FILE: wrappers.dfy ===
/** Optional values and results with an error, standing in for Python's `None` and raised exceptions. */
module Wrappers {

  /** A value that may be absent (Python's `None`). */
  datatype Option<+T> = None | Some(value: T)

  /** The outcome of an operation that may raise. */
  datatype Result<+R, +E> = Success(value: R) | Failure(error: E)
}
